=== FILE: README.md ===
# RideConnect ride ledger, in Dafny

RideConnect lets students of NIT Calicut share a taxi. A host posts a ride with a
destination, a date and time, between one and four seats, and a total fare of at
least 100. Other students join the ride until its seats are taken. Everyone aboard,
host included, pays an equal rounded-up share. An Express/MongoDB API server keeps
the rides and the accounts. A React web client browses, filters, posts and joins
rides, and lists the drivers in a directory.

This project models the ledger the server keeps and the ride logic the client
derives from it:

- `Ledger` (ledger.dfy) covers the ride record, its schema bounds and the
  well-formedness invariant (capacity, host never aboard, nobody twice). It also
  covers payload validation for `POST /api/rides`, the ordered checks of
  `POST /api/rides/:rideId/join`, the listing order of `GET /api/rides`, and the
  serialized `mapRide` view. `RideStore` is a class holding the rides in a map.
  Its `Create`, `Join` and `List` methods are proved against those functions.
- `Accounts` (accounts.dfy) covers sign-up with case-blind e-mail uniqueness,
  login, the security-question lookup and password reset by security answer.
  `AccountStore` holds the account list. It also covers the bearer-token gate
  (`authMiddleware`).
- `Fare` (fare.dfy) is the fare split `ceil(totalFare / (seats + 1))` and the
  saving figure. The ride dialog, the ride card, both post-ride forms and the
  "My Rides" page all use this one split.
- `RideDetail` (ride_detail.dfy) is the ride dialog: seats remaining, the full
  and host gates, the join button, and `handleJoinRide` as a class with state.
- `PostRide` (post_ride.dfy) is the post-ride form as a class. It covers
  destination choice, the fare preview and the submission sequence, and how the
  server reads what the form sends.
- `RideBrowser` (rides_page.dfy) and `LegacyRides` (legacy_rides.dfy) cover the
  time-slot classifier, the three ride filters, the destination list and its
  reset, and the results caption. `LegacyRides` is the earlier mock-data copy
  of the page.
- `MyRides` (my_rides.dfy) covers the posted/joined split, the full badge, the
  joined-ride fare and the tab contents.
- `FindDriver` (find_driver.dfy) covers the vehicle and search filters, the
  available-driver count and the availability line.
- Helper modules:
  - `Text` (text.dfy) holds ASCII lower-casing, substring search, JavaScript
    `Number()` on digit strings, decimal printing and `split` pieces.
  - `Seqs` (seqs.dfy) holds an order-preserving filter and first-occurrence
    de-duplication.
  - `Wrappers` and `Toasts` hold small value types.

Modelling choices:

- Database ids are natural numbers. Their string form is the decimal numeral,
  which is injective, so the clients' string comparisons of ids are comparisons
  of ids.
- A bcrypt hash is a value that remembers its secret: `Hash` and `Matches`.
- Token verification is a function parameter `verify` from token to user id.
- The schema's e-mail syntax check is a parameter `isEmail`.
- Timestamps are opaque natural numbers.
- An awaited request is a parameter `reply` saying how it settled.

## Model

| member | source | states |
|---|---|---|
| Ledger.ValidatePayload | server/src/index.ts:166-174 | accepted exactly when `from` and `to` have at least two characters, date and time are present, seats lie in 1..4, the fare is at least 100 and the note is absent or a string; the accepted fields are copied unchanged |
| Ledger.NewRideFacts | server/src/index.ts:288-302 | a created ride has no participants, is upcoming and verified, is hosted and posted by the caller, carries every payload field (from, to, date, time, seats, fare, note), the given id and creation time, and is well-formed |
| Ledger.RideStore.Create | server/src/index.ts:277-305 | 400 exactly when the request schema rejects the payload; the request fails uncaught (nothing stored, no 201; a 500 under Express 5) exactly when it passes but the database schema refuses an empty date, time or host name; either refusal leaves the store unchanged; otherwise the new ride is inserted under a fresh id and nothing else changes; the store invariant is kept |
| Ledger.JoinCheckOrder | server/src/index.ts:309-325 | each refusal (not found, host, already joined, full) happens exactly when its check fails and all earlier checks passed; success exactly when all four pass |
| Ledger.HostCannotJoin | server/src/index.ts:314-316 | the host is refused whatever the capacity and participants |
| Ledger.JoinAppendsCaller | server/src/index.ts:327-334 | a successful join appends exactly one entry with the caller's id and name after the unchanged earlier participants, and changes no other field |
| Ledger.JoinPreservesWellFormed | server/src/index.ts:313-333 | a join keeps capacity, keeps the host out and lists no user twice |
| Ledger.SequentialJoinsFillToCapacity | server/src/index.ts:323-333 | one after another, distinct newcomers end with exactly min(seats, participants + newcomers) aboard |
| Ledger.TwoSeatScenario | server/src/index.ts:307-335 | two newcomers fill a two-seat ride, and a third is refused as full |
| Ledger.RideStore.Join | server/src/index.ts:307-335 | the reply is the join rule applied to the stored ride (or its absence); only a success replaces that one ride; the store invariant is kept |
| Ledger.ListedBeforeTotal | server/src/index.ts:273 | any two rides are ordered one way or the other by (date, time, createdAt) |
| Ledger.ListedBeforeTransitive | server/src/index.ts:273 | the listing order is transitive |
| Ledger.InsertListed | server/src/index.ts:273 | insertion keeps every ride and adds the new one, as a multiset |
| Ledger.InsertListedSorted | server/src/index.ts:273 | insertion keeps a listing sorted by (date, time, createdAt) |
| Ledger.RideStore.List | server/src/index.ts:272-275 | the listing is sorted by date, then time, then creation time, and holds every stored ride once |
| Ledger.MapRide | server/src/index.ts:133-151 | the id strings read back as the ride's, the host's and, in order, each participant's id; every other field is carried over; a well-formed ride gives a view whose participant count is within the seats, whose host id string is not among the participants' and whose participant id strings do not repeat |
| Ledger.IdStringInjective | server/src/index.ts:145-147 | two ids have the same string form exactly when they are equal |
| Accounts.FindByEmail | server/src/index.ts:188 | the lookup returns an account registered under that exact e-mail, and finds none exactly when none is registered |
| Accounts.Signup | server/src/index.ts:180-205 | 400 exactly when the schema rejects the body, 409 exactly when the lower-cased e-mail is taken; otherwise one account is appended under the next id with the given name and security question, the lower-cased e-mail, the hashed password and the hashed lower-cased answer |
| Accounts.SignupKeepsAccountsValid | server/src/index.ts:187-201 | a sign-up keeps ids at their positions, e-mails lower-cased and e-mails unique |
| Accounts.SignupIgnoresEmailCase | server/src/index.ts:187-191 | after a sign-up, a second one whose e-mail lower-cases the same way is refused with 409 |
| Accounts.AccountStore.SignUp | server/src/index.ts:180-205 | the store follows the sign-up rule and keeps its invariant |
| Accounts.Login | server/src/index.ts:207-226 | 400 exactly for a malformed body; 401 exactly when no account has the lower-cased e-mail or the password does not match; success names the account that matches |
| Accounts.SecurityQuestion | server/src/index.ts:228-239 | 404 exactly when no account has the lower-cased e-mail; 400 exactly when that account has no question; otherwise its question |
| Accounts.Reset | server/src/index.ts:241-266 | 400 exactly when a field is missing or empty; 404 exactly for an unknown e-mail; 400 exactly when the account has no answer hash; 401 exactly when the lower-cased answer does not match it; success exactly when it matches, replacing only that account's password hash |
| Accounts.SignupAnswerResets | server/src/index.ts:194-256 | the answer given at sign-up, in any letter case, resets the password of the account that sign-up created |
| Accounts.AccountStore.ResetPassword | server/src/index.ts:241-266 | the store follows the reset rule, changes only on success, and keeps its invariant |
| Accounts.ResetReplacesPassword | server/scripts/verify-forgot-password.ts:67-81 | after a reset the new password logs in to the same account and an old one that differs from it within bcrypt's first 72 characters gets 401 |
| Accounts.ResetKeepsEmails | server/src/index.ts:261-263 | a reset keeps every e-mail and the account invariant |
| Accounts.FindByEmailUnique | server/src/index.ts:247 | with unique e-mails the lookup finds the one account that holds the e-mail |
| Accounts.ShortResetLocksAccount | server/src/index.ts:241-266 | with all fields present, a known e-mail and a matching answer, a reset to a password under six characters succeeds, and afterwards every login to that account fails |
| Accounts.Authenticate | server/src/index.ts:101-124 | missing header exactly when the header is absent or empty; invalid header exactly when its second space-separated piece is absent or empty; invalid token exactly when that piece does not verify; unknown user exactly when it verifies to no existing account; otherwise the account it names is admitted |
| Accounts.LongSecretsCollide | server/src/index.ts:219 | two secrets that agree on their first 72 characters each match the other's hash |
| Accounts.ShortSecretsMatchExactly | server/src/index.ts:219 | for secrets of at most 72 characters, matching the hash is equality |
| Accounts.BearerHeaderAuthenticates | client/src/lib/api.ts:22-24 | the client's `Bearer <token>` header admits exactly the user the token names, and is refused as invalid or unknown otherwise |
| Fare.FarePerPerson | client/src/components/RideDetailModal.tsx:32 | the share times the head count covers the total, and one less would not |
| Fare.FareIsSmallest | client/src/components/RideDetailModal.tsx:32 | the share is the smallest amount that, paid by seats + 1 people, covers the total |
| Fare.Savings | client/src/components/RideDetailModal.tsx:33 | the saving is the floor of seats × total / (seats + 1), the part of the total the host does not pay |
| Fare.FareOvershoot | client/src/components/RideDetailModal.tsx:32 | together the seats + 1 people pay at least the total and overpay by at most `seats` units |
| Fare.FareMonotoneInTotal | src/components/RideCard.tsx:13 | a larger total never gives a smaller share |
| Fare.FareAntitoneInSeats | src/components/RideCard.tsx:13 | more seats never give a larger share |
| Fare.SplitOfValidRide | src/components/RideCard.tsx:61 | on a ride within the schema bounds the share and the saving are both positive and below the total |
| Fare.FareExamples | src/pages/PostRide.tsx:176 | 600 over two seats is 200 each (saving 400), over one seat 300, and 601 over two seats 201 |
| RideDetail.SeatsRemaining | client/src/components/RideDetailModal.tsx:34-35 | never negative; zero exactly when participants reach the seats; otherwise seats minus participants |
| RideDetail.JoinButton | client/src/components/RideDetailModal.tsx:192-200 | disabled exactly when joining, full or host; the label is "Join Ride" exactly when the button is enabled; otherwise it names host before full before joining |
| RideDetail.ClientGateAgreesWithLedger | client/src/components/RideDetailModal.tsx:51 | on a ride the server sent, the client's host and full gates match the server's checks, so a blocked click would be refused by the server too, and a sent one is admitted or refused only as already joined |
| RideDetail.RideDetailModal.HandleJoinRide | client/src/components/RideDetailModal.tsx:45-70 | no request without a token, on a full ride or for the host; otherwise exactly one request sent while `isJoining` is true, the result reported, the dialog closed on success, and `isJoining` false afterwards |
| RideDetail.DialogFareBreakdown | client/src/components/RideDetailModal.tsx:32-33 | for a ride the server sent, the share is positive and below the total, covers it with seats + 1 people, and the saving is the rest |
| PostRide.SeatChoicesReadBack | client/src/pages/PostRide.tsx:184-186 | every offered seat value reads back as itself and lies in 1..4 |
| PostRide.FarePreview | client/src/pages/PostRide.tsx:207-214 | shown exactly when both fields are non-empty; the head count is the seats read as a number plus one, and the share is the smallest amount that, paid by that many, covers the total; a field that does not read as a number gives NaN in what depends on it |
| PostRide.PreviewIsFareSplit | client/src/pages/PostRide.tsx:211-214 | for numeric fields the preview shows the fare split of the ride and a head count of seats + 1 |
| PostRide.PostRideForm.constructor | client/src/pages/PostRide.tsx:26-35 | the form starts at from "NIT Calicut", seats "2", fare "600", other fields empty, nothing submitting |
| PostRide.PostRideForm.ChooseDestination | client/src/pages/PostRide.tsx:118-123 | "Other" clears `to`, any other choice becomes `to`; nothing else changes |
| PostRide.PostRideForm.SetField | client/src/pages/PostRide.tsx:146-226 | one field takes the new value and every other field is unchanged |
| PostRide.PostRideForm.HandleSubmit | client/src/pages/PostRide.tsx:43-82 | missing destination, date or time: an error toast and no request; then no token: an error and a redirect to /auth; otherwise one request with `isSubmitting` true, success moves to /rides, failure reports the message, and `isSubmitting` ends false |
| PostRide.SubmissionAcceptedIff | client/src/pages/PostRide.tsx:59-68 | a submission that passed the form's checks is accepted by the request schema exactly when the destination has at least two characters and the fare reads as at least 100, and once accepted it also passes the database schema for a host with a name |
| RideBrowser.SlotOfHour | client/src/pages/Rides.tsx:46-50 | morning exactly for [6,12), afternoon for [12,17), evening for [17,22), night for every other hour and for a non-numeric one |
| RideBrowser.SlotNamesDistinct | client/src/pages/Rides.tsx:37-43 | the four slot names differ from one another and from "all" |
| RideBrowser.TimeSlotOfClockTime | client/src/pages/Rides.tsx:45-46 | a time `HH:MM` with a numeric hour is classified by that hour |
| RideBrowser.TimeSlotIsOneOfFour | client/src/pages/Rides.tsx:45-51 | every time gets one of the four slot names, never "all" |
| RideBrowser.NonNumericHourIsNight | client/src/pages/Rides.tsx:50 | a time whose hour is not a number is night |
| RideBrowser.FilteredRides | client/src/pages/Rides.tsx:53-66 | an order-preserving subsequence of the rides holding exactly those that the destination, date and time-slot filters all accept |
| RideBrowser.DefaultFiltersKeepAll | client/src/pages/Rides.tsx:21-25 | the default filters keep every ride in place |
| RideBrowser.UnknownSlotKeepsNothing | client/src/pages/Rides.tsx:62 | a time-slot value that names no slot hides every ride |
| RideBrowser.Destinations | client/src/pages/Rides.tsx:33-36 | "all" first, then exactly the rides' destinations |
| RideBrowser.DestinationsInFirstOccurrenceOrder | client/src/pages/Rides.tsx:34 | the destinations after "all" do not repeat and follow their first appearance among the rides |
| RideBrowser.ReconcileDestination | client/src/pages/Rides.tsx:68-72 | a destination filter that is listed stays as it is; an unlisted one becomes "all"; the other filters never change |
| RideBrowser.ReconcileIdempotent | client/src/pages/Rides.tsx:68-72 | applying the reset twice is applying it once |
| RideBrowser.ReconciledDestinationShowsARide | client/src/pages/Rides.tsx:68-72 | after the reset, the destination filter alone leaves some ride on a non-empty list |
| RideBrowser.ResultsCaption | client/src/pages/Rides.tsx:144-148 | loading first, then the error message or its fallback, then the number of rides found as a numeral that reads back as the count |
| LegacyRides.LegacyDestinationsStartWithAll | src/pages/Rides.tsx:26 | the fixed destination list has three entries and starts with "all" |
| LegacyRides.LegacyTimeSlot | src/pages/Rides.tsx:35-41 | the earlier classifier is the current one and gives one of the four slot names |
| LegacyRides.LegacyFilteredRides | src/pages/Rides.tsx:43-56 | an order-preserving subsequence of the mock rides holding exactly those the three filters accept |
| LegacyRides.LegacyDefaultFiltersKeepAll | src/pages/Rides.tsx:20-24 | the default filters keep every mock ride |
| LegacyRides.LegacyAgreesWithCurrent | src/pages/Rides.tsx:46-52 | a ride passes the current filter exactly when its earlier shape passes the earlier filter |
| MyRides.PostedRides | client/src/pages/MyRides.tsx:26-29 | empty without a user; otherwise an order-preserving subsequence holding exactly the rides the user hosts |
| MyRides.JoinedRides | client/src/pages/MyRides.tsx:31-34 | empty without a user; otherwise an order-preserving subsequence holding exactly the rides listing the user as a participant |
| MyRides.PostedAndJoinedDisjoint | client/src/pages/MyRides.tsx:26-34 | on rides the server sent, no ride is on both tabs |
| MyRides.IsFullAgreesWithDialog | client/src/pages/MyRides.tsx:97-98 | the full badge agrees with the ride dialog's full gate |
| MyRides.JoinedRideFare | client/src/pages/MyRides.tsx:168 | the fare shown covers the total when paid by seats + 1 people, and one less would not |
| MyRides.JoinedRideFareIsDialogFare | client/src/pages/MyRides.tsx:168 | it is the dialog's share, positive and below the total |
| MyRides.PostedTab | client/src/pages/MyRides.tsx:91-155 | the error card first, then the loading card; otherwise ride cards exactly when the user hosts some loaded ride, and they are all the user's rides in loading order; otherwise the "not posted" card |
| MyRides.JoinedTab | client/src/pages/MyRides.tsx:162-219 | the error card first, then the loading card; otherwise ride cards exactly when some loaded ride lists the user, and they are all such rides in loading order; otherwise the "not joined" card |
| MyRides.JoinShowsOnJoinedTab | client/src/pages/MyRides.tsx:33 | a ride the user joined on the server shows up on the joined tab after reloading |
| FindDriver.FilteredDrivers | client/src/pages/FindDriver.tsx:37-46 | an order-preserving subsequence holding exactly the drivers that match the vehicle filter and the search |
| FindDriver.NoFiltersShowAll | client/src/pages/FindDriver.tsx:39-41 | vehicle "all" with an empty search shows every driver |
| FindDriver.QueryIsSubstringMatch | client/src/pages/FindDriver.tsx:40-43 | a non-empty search matches exactly when the lower-cased query occurs in the lower-cased name or some lower-cased route |
| FindDriver.QueryIgnoresCase | client/src/pages/FindDriver.tsx:42-43 | the search gives the same answer for a query and its lower-cased form |
| FindDriver.AvailableCount | client/src/pages/FindDriver.tsx:63-65 | exactly the number of shown drivers that are available: at most the number shown, and equal to it exactly when every shown driver is available |
| FindDriver.CountLine | client/src/pages/FindDriver.tsx:70 | the numeral before the first space reads back as the count |
| Text.IncludesIsOccurrence | client/src/pages/FindDriver.tsx:42 | `includes` holds exactly when the needle occurs at some position of the text |
| Text.NumberShowNat | client/src/pages/PostRide.tsx:184-186 | a number written out in decimal reads back through `Number` as itself |
| Text.LexLessTotal | server/src/index.ts:273 | any two strings are equal or ordered one way or the other |
| Seqs.FilterKeepsAllIffAll | client/src/pages/FindDriver.tsx:63-65 | a filter keeps its whole input exactly when every element passes |
| Seqs.FilterLengthCountsPositions | client/src/pages/FindDriver.tsx:63-65 | a filter keeps as many elements as there are positions whose element passes |

## Left out

- HTTP and persistence are left out: Express routing, CORS, logging, the error handler, Mongoose queries, server start and shutdown, the seed bootstrap of drivers and demo accounts, `GET /api/health`, `GET /api/drivers` and its sort by name, and the client's fetch wrapper. The store is an in-memory map and list.
- `GET /api/auth/me` and `toPublicUser` are left out. They only echo the authenticated account's public fields.
- Concurrency is left out. The join handler reads, checks, appends and saves with no conditional update, so two requests racing for the last seat can both succeed. `RideStore.Join` is one sequential step, and the invariants hold only for sequential calls.
- bcrypt and jwt are left out: hashing cost, salts, the signing secret and the seven-day expiry. A digest is modelled as the secret it was made from, `Matches` compares the first 72 characters the way bcrypt compares the first 72 bytes, and token checking is the `verify` parameter.
- Accounts.Login and Accounts.ResetReplacesPassword treat one character as one byte: the 72-byte limit of bcrypt is applied to 72 characters, so a password with multi-byte UTF-8 characters is truncated later in the model than by bcrypt.
- Accounts.Authenticate: a malformed id inside a valid token makes the database lookup throw, which the server answers as an invalid token. The model folds this into `verify` returning no id.
- The schema's e-mail syntax rule is the `isEmail` parameter.
- Text.Number models JavaScript `Number()` on strings of decimal digits only, with "" as 0. Signs, decimal points, exponents and surrounding white space are outside the model and read as NaN here.
- Non-integer seats or fares, and the floating-point division under `Math.ceil`, are outside the model. The fare split is integer ceiling division.
- Text.Lower models `toLowerCase` on ASCII letters only.
- Body fields of the wrong JSON type are modelled as absent. For rides, sign-up and login this matches the server, whose schema answers 400 either way. For the reset body the server does not check types: a non-string `email` or `securityAnswer` makes `toLowerCase` throw, so the request fails uncaught (no reply is sent; a 500 under Express 5), and a non-string `newPassword` is hashed; the model answers 400 instead.
- Ledger.RideStore.Join: a `:rideId` that is not a well-formed database id makes `findById` throw (an internal error, not 404); the model takes the id as a number and answers 404 for every unknown one.
- The schema's `.min` length rules count UTF-16 code units, and `|s|` counts characters: a string of characters outside the Basic Multilingual Plane is longer to the schema than in the model.
- Timestamps (`createdAt`, `joinedAt`, `new Date()`) are opaque natural numbers supplied by the caller. Date formatting for display is left out.
- The browser's own `min` and `step` checks on the date and fare inputs are left out.
- MyRides.JoinedRideFare requires a non-negative seat count. The client divides by `seats + 1` for any value, but every ride the server sends has one to four seats.
- The driver directory's unused fields (rating, languages, price, vehicle number) and the contact dialog handlers in `client/src/pages/FindDriver.tsx`, which only set display flags, are left out.
- The query cache refresh after a post or a join is left out; `MyRides.JoinShowsOnJoinedTab` states what the refreshed list shows.
- The mock ride data of the earlier page (`src/data/mockRides`) is not part of this model. The earlier filter takes the rides as a parameter.

=== FILE: accounts.dfy ===
/**
  The identity store of the API server: sign-up with case-insensitive e-mail
  uniqueness, login, the security-question lookup, password reset by security
  answer, and the bearer-token gate in front of the ride operations.
*/
module Accounts {
  import opened Wrappers
  import opened Text
  import Ledger

  type UserId = Ledger.UserId

  /** A bcrypt hash. Hashing is opaque here: a digest remembers the secret it was
      made from, and comparing a candidate against it is `Matches`. */
  datatype Digest = Digest(secret: string)

  /** bcrypt reads at most the first 72 bytes of a secret (one character is one
      byte here). */
  const BcryptLimit: nat := 72

  function Significant(s: string): (r: string)
    ensures r <= s && |r| == if |s| <= BcryptLimit then |s| else BcryptLimit
  {
    if |s| <= BcryptLimit then s else s[..BcryptLimit]
  }

  function Hash(s: string): Digest {
    Digest(s)
  }

  /** `bcrypt.compare`: the candidate matches when it agrees with the hashed
      secret on the part bcrypt reads. */
  predicate Matches(candidate: string, d: Digest) {
    Significant(candidate) == Significant(d.secret)
  }

  /** Two secrets that agree on their first 72 characters are interchangeable:
      each matches the other's hash. */
  lemma LongSecretsCollide(a: string, b: string)
    requires |a| >= BcryptLimit && |b| >= BcryptLimit && a[..BcryptLimit] == b[..BcryptLimit]
    ensures Matches(a, Hash(b)) && Matches(b, Hash(a))
  {
  }

  /** Secrets that bcrypt reads in full match only themselves. */
  lemma ShortSecretsMatchExactly(candidate: string, secret: string)
    requires |candidate| <= BcryptLimit && |secret| <= BcryptLimit
    ensures Matches(candidate, Hash(secret)) <==> candidate == secret
  {
  }

  /** A stored account. An empty `securityQuestion` and a `None` answer hash stand
      for older accounts that lack them. */
  datatype User = User(
    id: UserId,
    name: string,
    email: string,
    passwordHash: Digest,
    securityQuestion: string,
    securityAnswerHash: Option<Digest>)

  function ToCaller(u: User): Ledger.Caller {
    Ledger.Caller(u.id, u.name)
  }

  /** The first account registered under exactly this e-mail. */
  function FindByEmail(users: seq<User>, email: string): (r: Option<UserId>)
    ensures r.Some? ==> r.value < |users| && users[r.value].email == email
    ensures r.None? <==> forall i :: 0 <= i < |users| ==> users[i].email != email
    decreases |users|
  {
    if users == [] then None
    else if users[|users| - 1].email == email && FindByEmail(users[..|users| - 1], email).None? then Some(|users| - 1)
    else
      var r := FindByEmail(users[..|users| - 1], email);
      assert forall i :: 0 <= i < |users| - 1 ==> users[..|users| - 1][i] == users[i];
      r
  }

  /** Accounts sit at their own id, their e-mails are stored lower-cased, and no
      e-mail is registered twice. */
  predicate AccountsValid(users: seq<User>) {
    && (forall i :: 0 <= i < |users| ==> users[i].id == i && IsLower(users[i].email))
    && (forall i, j :: 0 <= i < j < |users| ==> users[i].email != users[j].email)
  }

  // ---------------------------------------------------------------------------
  // Sign-up

  /** The sign-up body; `None` for a missing or non-string field. */
  datatype SignupRequest = SignupRequest(
    name: Option<string>,
    email: Option<string>,
    password: Option<string>,
    securityQuestion: Option<string>,
    securityAnswer: Option<string>)

  datatype SignupError = InvalidSignup | EmailTaken

  /** The sign-up schema. `isEmail` is the schema's e-mail syntax check. */
  predicate SignupAcceptable(req: SignupRequest, isEmail: string -> bool) {
    && req.name.Some? && |req.name.value| >= 2
    && req.email.Some? && isEmail(req.email.value)
    && req.password.Some? && |req.password.value| >= 6
    && req.securityQuestion.Some? && |req.securityQuestion.value| >= 5
    && req.securityAnswer.Some? && |req.securityAnswer.value| >= 2
  }

  /** The account list after a sign-up attempt, or the refusal: 400 for a payload
      the schema rejects, 409 when the lower-cased e-mail is already registered. */
  function Signup(users: seq<User>, req: SignupRequest, isEmail: string -> bool): (r: Result<seq<User>, SignupError>)
    ensures r == Failure(InvalidSignup) <==> !SignupAcceptable(req, isEmail)
    ensures r == Failure(EmailTaken) <==>
      SignupAcceptable(req, isEmail) && exists i :: 0 <= i < |users| && users[i].email == Lower(req.email.value)
    ensures r.Success? ==>
      && |r.value| == |users| + 1 && r.value[..|users|] == users
      && r.value[|users|].id == |users| && r.value[|users|].email == Lower(req.email.value)
      && r.value[|users|].name == req.name.value
      && r.value[|users|].securityQuestion == req.securityQuestion.value
      && Matches(req.password.value, r.value[|users|].passwordHash)
      && r.value[|users|].securityAnswerHash.Some?
      && Matches(Lower(req.securityAnswer.value), r.value[|users|].securityAnswerHash.value)
  {
    if !SignupAcceptable(req, isEmail) then Failure(InvalidSignup)
    else
      var email := Lower(req.email.value);
      if FindByEmail(users, email).Some? then Failure(EmailTaken)
      else Success(users + [User(|users|, req.name.value, email, Hash(req.password.value),
                                 req.securityQuestion.value, Some(Hash(Lower(req.securityAnswer.value))))])
  }

  /** A successful sign-up appends one account under the next id with the lower-cased
      e-mail, and keeps e-mails unique. */
  lemma SignupKeepsAccountsValid(users: seq<User>, req: SignupRequest, isEmail: string -> bool)
    requires AccountsValid(users)
    ensures Signup(users, req, isEmail).Success? ==>
      && AccountsValid(Signup(users, req, isEmail).value)
      && Signup(users, req, isEmail).value[..|users|] == users
      && |Signup(users, req, isEmail).value| == |users| + 1
      && Signup(users, req, isEmail).value[|users|].email == Lower(req.email.value)
  {
    if Signup(users, req, isEmail).Success? {
      LowerIdempotent(req.email.value);
      var u := Signup(users, req, isEmail).value;
      assert forall i :: 0 <= i < |users| ==> u[i] == users[i];
    }
  }

  /** Uniqueness ignores case: once an e-mail is registered, signing up again with
      any e-mail that lower-cases to the same string is refused with 409. */
  lemma SignupIgnoresEmailCase(users: seq<User>, first: SignupRequest, second: SignupRequest, isEmail: string -> bool)
    requires Signup(users, first, isEmail).Success?
    requires SignupAcceptable(second, isEmail)
    requires Lower(second.email.value) == Lower(first.email.value)
    ensures Signup(Signup(users, first, isEmail).value, second, isEmail) == Failure(EmailTaken)
  {
    var u := Signup(users, first, isEmail).value;
    assert u[|users|].email == Lower(second.email.value);
  }

  // ---------------------------------------------------------------------------
  // Login and the security question

  datatype LoginError = MalformedLogin | BadCredentials

  /** `POST /api/auth/login`: 400 when the schema rejects the body, 401 for an
      unknown e-mail or a wrong password, otherwise the account's id. */
  function Login(users: seq<User>, email: Option<string>, password: Option<string>, isEmail: string -> bool): (r: Result<UserId, LoginError>)
    ensures r.Success? ==>
      && email.Some? && password.Some? && r.value < |users|
      && users[r.value].email == Lower(email.value)
      && Matches(password.value, users[r.value].passwordHash)
    ensures r == Failure(MalformedLogin) <==>
      email.None? || !isEmail(email.value) || password.None? || |password.value| < 6
    ensures r == Failure(BadCredentials) <==>
      && email.Some? && isEmail(email.value) && password.Some? && |password.value| >= 6
      && var found := FindByEmail(users, Lower(email.value));
      (found.None? || !Matches(password.value, users[found.value].passwordHash))
  {
    if email.None? || !isEmail(email.value) || password.None? || |password.value| < 6 then Failure(MalformedLogin)
    else match FindByEmail(users, Lower(email.value))
      case None => Failure(BadCredentials)
      case Some(id) =>
        if Matches(password.value, users[id].passwordHash) then Success(id) else Failure(BadCredentials)
  }

  datatype QuestionError = QuestionUserNotFound | NoQuestionSet

  /** `GET /api/auth/security-question/:email`: 404 for an unknown e-mail, 400 when
      the account has no question, otherwise the question. */
  function SecurityQuestion(users: seq<User>, email: string): (r: Result<string, QuestionError>)
    ensures r == Failure(QuestionUserNotFound) <==> FindByEmail(users, Lower(email)).None?
    ensures r == Failure(NoQuestionSet) <==>
      FindByEmail(users, Lower(email)).Some? && users[FindByEmail(users, Lower(email)).value].securityQuestion == ""
    ensures r.Success? <==> FindByEmail(users, Lower(email)).Some? && users[FindByEmail(users, Lower(email)).value].securityQuestion != ""
    ensures r.Success? ==> r.value == users[FindByEmail(users, Lower(email)).value].securityQuestion
  {
    match FindByEmail(users, Lower(email))
    case None => Failure(QuestionUserNotFound)
    case Some(id) =>
      if users[id].securityQuestion == "" then Failure(NoQuestionSet) else Success(users[id].securityQuestion)
  }

  // ---------------------------------------------------------------------------
  // Password reset

  datatype ResetError = MissingFields | ResetUserNotFound | AnswerNotSet | WrongAnswer

  /** A body field JavaScript treats as absent: missing or empty. */
  predicate Falsy(f: Option<string>) {
    f.None? || f.value == ""
  }

  /** The reset body has all three fields, none of them empty. */
  predicate ResetFieldsPresent(email: Option<string>, answer: Option<string>, newPassword: Option<string>) {
    !Falsy(email) && !Falsy(answer) && !Falsy(newPassword)
  }

  /** The account list after a reset attempt, or the refusal: 400 for a missing
      field, 404 for an unknown e-mail, 400 for an account without an answer hash,
      401 for a wrong answer (compared lower-cased). */
  function Reset(users: seq<User>, email: Option<string>, answer: Option<string>, newPassword: Option<string>): (r: Result<seq<User>, ResetError>)
    ensures r == Failure(MissingFields) <==> !ResetFieldsPresent(email, answer, newPassword)
    ensures r == Failure(ResetUserNotFound) <==>
      ResetFieldsPresent(email, answer, newPassword) && FindByEmail(users, Lower(email.value)).None?
    ensures r == Failure(AnswerNotSet) <==>
      && ResetFieldsPresent(email, answer, newPassword)
      && var found := FindByEmail(users, Lower(email.value));
      found.Some? && users[found.value].securityAnswerHash.None?
    ensures r == Failure(WrongAnswer) <==>
      && ResetFieldsPresent(email, answer, newPassword)
      && var found := FindByEmail(users, Lower(email.value));
      && found.Some? && users[found.value].securityAnswerHash.Some?
      && !Matches(Lower(answer.value), users[found.value].securityAnswerHash.value)
    ensures r.Success? <==>
      && ResetFieldsPresent(email, answer, newPassword)
      && var found := FindByEmail(users, Lower(email.value));
      && found.Some? && users[found.value].securityAnswerHash.Some?
      && Matches(Lower(answer.value), users[found.value].securityAnswerHash.value)
    ensures r.Success? ==> var id := FindByEmail(users, Lower(email.value)).value;
      r.value == users[id := users[id].(passwordHash := Hash(newPassword.value))]
  {
    if Falsy(email) || Falsy(answer) || Falsy(newPassword) then Failure(MissingFields)
    else match FindByEmail(users, Lower(email.value))
      case None => Failure(ResetUserNotFound)
      case Some(id) =>
        if users[id].securityAnswerHash.None? then Failure(AnswerNotSet)
        else if !Matches(Lower(answer.value), users[id].securityAnswerHash.value) then Failure(WrongAnswer)
        else Success(users[id := users[id].(passwordHash := Hash(newPassword.value))])
  }

  /** After a reset the new password logs in and the old one is refused with 401
      (unless the two agree on all that bcrypt reads of them). */
  lemma ResetReplacesPassword(users: seq<User>, email: string, answer: string, newPassword: string,
                              oldPassword: string, isEmail: string -> bool)
    requires AccountsValid(users)
    requires Reset(users, Some(email), Some(answer), Some(newPassword)).Success?
    requires isEmail(email) && |newPassword| >= 6 && |oldPassword| >= 6
    requires Significant(oldPassword) != Significant(newPassword)
    ensures var after := Reset(users, Some(email), Some(answer), Some(newPassword)).value;
      && Login(after, Some(email), Some(newPassword), isEmail) == Success(FindByEmail(users, Lower(email)).value)
      && Login(after, Some(email), Some(oldPassword), isEmail) == Failure(BadCredentials)
  {
    var after := Reset(users, Some(email), Some(answer), Some(newPassword)).value;
    var id := FindByEmail(users, Lower(email)).value;
    ResetKeepsEmails(users, email, answer, newPassword);
    assert FindByEmail(after, Lower(email)) == Some(id) by {
      FindByEmailUnique(after, Lower(email), id);
    }
  }

  lemma ResetKeepsEmails(users: seq<User>, email: string, answer: string, newPassword: string)
    requires AccountsValid(users)
    requires Reset(users, Some(email), Some(answer), Some(newPassword)).Success?
    ensures var after := Reset(users, Some(email), Some(answer), Some(newPassword)).value;
      && |after| == |users| && AccountsValid(after)
      && forall i :: 0 <= i < |users| ==> after[i].email == users[i].email
  {
  }

  /** With unique e-mails the search finds the one account holding the e-mail. */
  lemma FindByEmailUnique(users: seq<User>, email: string, id: nat)
    requires AccountsValid(users)
    requires id < |users| && users[id].email == email
    ensures FindByEmail(users, email) == Some(id)
  {
  }

  /** The reset does not apply the sign-up rule of at least six characters, and
      login does: a reset to a shorter password succeeds, and leaves an account
      that no login opens, neither with the new password nor with any other. */
  lemma ShortResetLocksAccount(users: seq<User>, email: string, answer: string, newPassword: string,
                               password: string, isEmail: string -> bool)
    requires AccountsValid(users)
    requires email != "" && answer != "" && 0 < |newPassword| < 6
    requires FindByEmail(users, Lower(email)).Some?
    requires var hash := users[FindByEmail(users, Lower(email)).value].securityAnswerHash;
      hash.Some? && Matches(Lower(answer), hash.value)
    ensures Reset(users, Some(email), Some(answer), Some(newPassword)).Success?
    ensures Login(Reset(users, Some(email), Some(answer), Some(newPassword)).value,
                  Some(email), Some(password), isEmail).Failure?
  {
    var after := Reset(users, Some(email), Some(answer), Some(newPassword)).value;
    var id := FindByEmail(users, Lower(email)).value;
    ResetKeepsEmails(users, email, answer, newPassword);
    FindByEmailUnique(after, Lower(email), id);
    if |password| >= 6 {
      assert |Significant(password)| >= 6 > |Significant(after[id].passwordHash.secret)|;
    }
  }

  /** The answer given at sign-up, in any letter case, later resets the password
      of the account that sign-up created. */
  lemma SignupAnswerResets(users: seq<User>, req: SignupRequest, isEmail: string -> bool,
                           answer: string, newPassword: string)
    requires AccountsValid(users)
    requires Signup(users, req, isEmail).Success?
    requires req.email.value != "" && Lower(answer) == Lower(req.securityAnswer.value) && newPassword != ""
    ensures var u := Signup(users, req, isEmail).value;
      && var r := Reset(u, req.email, Some(answer), Some(newPassword));
      && r.Success? && r.value[|users|].passwordHash == Hash(newPassword)
  {
    var u := Signup(users, req, isEmail).value;
    SignupKeepsAccountsValid(users, req, isEmail);
    FindByEmailUnique(u, Lower(req.email.value), |users|);
    assert |answer| == |Lower(answer)| == |Lower(req.securityAnswer.value)| == |req.securityAnswer.value| >= 2;
  }

  // ---------------------------------------------------------------------------
  // The account store

  class AccountStore {
    var users: seq<User>

    ghost predicate Valid()
      reads this
    {
      AccountsValid(users)
    }

    constructor ()
      ensures Valid() && users == []
    {
      users := [];
    }

    /** `POST /api/auth/signup`; on success the new account's id stands for the
        issued token, which carries only that id. */
    method SignUp(req: SignupRequest, isEmail: string -> bool) returns (r: Result<UserId, SignupError>)
      requires Valid()
      modifies this
      ensures Valid()
      ensures match Signup(old(users), req, isEmail)
        case Failure(e) => r == Failure(e) && users == old(users)
        case Success(u) => r == Success(|old(users)|) && users == u
    {
      if !SignupAcceptable(req, isEmail) {
        return Failure(InvalidSignup);
      }
      var normalized := Lower(req.email.value);
      var existing := FindByEmail(users, normalized);
      if existing.Some? {
        return Failure(EmailTaken);
      }
      SignupKeepsAccountsValid(users, req, isEmail);
      var id := |users|;
      users := users + [User(id, req.name.value, normalized, Hash(req.password.value),
                             req.securityQuestion.value, Some(Hash(Lower(req.securityAnswer.value))))];
      r := Success(id);
    }

    /** `POST /api/auth/reset-password`: only the matched account's password hash
        changes, and only on success. */
    method ResetPassword(email: Option<string>, answer: Option<string>, newPassword: Option<string>)
      returns (r: Result<(), ResetError>)
      requires Valid()
      modifies this
      ensures Valid()
      ensures match Reset(old(users), email, answer, newPassword)
        case Failure(e) => r == Failure(e) && users == old(users)
        case Success(u) => r == Success(()) && users == u
    {
      if Falsy(email) || Falsy(answer) || Falsy(newPassword) {
        return Failure(MissingFields);
      }
      var found := FindByEmail(users, Lower(email.value));
      if found.None? {
        return Failure(ResetUserNotFound);
      }
      var id := found.value;
      if users[id].securityAnswerHash.None? {
        return Failure(AnswerNotSet);
      }
      if !Matches(Lower(answer.value), users[id].securityAnswerHash.value) {
        return Failure(WrongAnswer);
      }
      users := users[id := users[id].(passwordHash := Hash(newPassword.value))];
      r := Success(());
    }
  }

  // ---------------------------------------------------------------------------
  // The bearer-token gate

  datatype AuthError = MissingHeader | InvalidHeader | InvalidToken | UnknownUser

  /** `authMiddleware`: the header must be present, its second space-separated
      piece is the token, `verify` (the token check with the server secret) must
      yield a user id, and that user must exist. Every refusal is a 401. */
  function Authenticate(users: seq<User>, header: Option<string>, verify: string -> Option<UserId>): (r: Result<User, AuthError>)
    ensures r == Failure(MissingHeader) <==> Falsy(header)
    ensures r == Failure(InvalidHeader) <==> !Falsy(header) && Falsy(SecondPiece(header.value, ' '))
    ensures r == Failure(InvalidToken) <==>
      !Falsy(header) && !Falsy(SecondPiece(header.value, ' ')) && verify(SecondPiece(header.value, ' ').value).None?
    ensures r == Failure(UnknownUser) <==>
      && !Falsy(header) && !Falsy(SecondPiece(header.value, ' '))
      && var id := verify(SecondPiece(header.value, ' ').value);
      id.Some? && id.value >= |users|
    ensures r.Success? <==>
      && !Falsy(header) && !Falsy(SecondPiece(header.value, ' '))
      && var id := verify(SecondPiece(header.value, ' ').value);
      id.Some? && id.value < |users|
    ensures r.Success? ==> r.value == users[verify(SecondPiece(header.value, ' ').value).value]
  {
    if Falsy(header) then Failure(MissingHeader)
    else
      var token := SecondPiece(header.value, ' ');
      if token.None? || token.value == "" then Failure(InvalidHeader)
      else match verify(token.value)
        case None => Failure(InvalidToken)
        case Some(id) => if id < |users| then Success(users[id]) else Failure(UnknownUser)
  }

  /** The header the web client sends, `"Bearer " + token`, authenticates exactly
      the account the token names. */
  lemma BearerHeaderAuthenticates(users: seq<User>, token: string, verify: string -> Option<UserId>)
    requires token != "" && ' ' !in token
    ensures var r := Authenticate(users, Some("Bearer " + token), verify);
      && (verify(token).None? ==> r == Failure(InvalidToken))
      && (verify(token).Some? && verify(token).value < |users| ==> r == Success(users[verify(token).value]))
      && (verify(token).Some? && verify(token).value >= |users| ==> r == Failure(UnknownUser))
  {
    assert "Bearer " + token == "Bearer" + [' '] + token;
    SecondPieceOfJoin("Bearer", ' ', token);
  }
}

=== FILE: fare.dfy ===
/**
  Fare splitting. A ride's total fare is shared by the host and every seat
  offered, so it is divided among `seats + 1` people and rounded up.
*/
module Fare {

  /** The number of people a fare is split among: the seats plus the host. */
  function HeadCount(seats: nat): (n: nat)
    ensures n > seats && n >= 1
  {
    seats + 1
  }

  /** `Math.ceil(totalFare / (seats + 1))`: the smallest amount that, paid by each
      of the `seats + 1` people, covers the total fare. */
  function FarePerPerson(totalFare: int, seats: nat): (f: int)
    ensures f * HeadCount(seats) >= totalFare
    ensures (f - 1) * HeadCount(seats) < totalFare
  {
    var n := HeadCount(seats);
    var q := (totalFare + seats) / n;
    assert totalFare + seats == q * n + (totalFare + seats) % n;
    assert (q - 1) * n == q * n - n;
    q
  }

  /** `totalFare - farePerPerson`: what one rider saves against paying alone. It
      is the rounded-down share of the total that the other `seats` people cover:
      `floor(seats * totalFare / (seats + 1))`. */
  function Savings(totalFare: int, seats: nat): (s: int)
    ensures HeadCount(seats) * s <= seats * totalFare < HeadCount(seats) * (s + 1)
  {
    var f, n := FarePerPerson(totalFare, seats), HeadCount(seats);
    var s := totalFare - f;
    assert n * s == n * totalFare - f * n;
    assert n * (s + 1) == n * totalFare - (f - 1) * n;
    assert n * totalFare == seats * totalFare + totalFare;
    s
  }

  lemma MulMonotone(a: int, b: int, n: nat)
    requires a <= b
    ensures a * n <= b * n
  {
    var d := b - a;
    assert b * n == a * n + d * n;
  }

  /** No smaller per-person amount covers the fare: the split is an exact ceiling. */
  lemma FareIsSmallest(totalFare: int, seats: nat, f: int)
    requires f * HeadCount(seats) >= totalFare
    ensures FarePerPerson(totalFare, seats) <= f
  {
    var r, n := FarePerPerson(totalFare, seats), HeadCount(seats);
    if f < r {
      MulMonotone(f, r - 1, n);
    }
  }

  /** The collected amount overshoots the total by less than one share per head. */
  lemma FareOvershoot(totalFare: int, seats: nat)
    ensures 0 <= FarePerPerson(totalFare, seats) * HeadCount(seats) - totalFare <= seats
  {
    var r, n := FarePerPerson(totalFare, seats), HeadCount(seats);
    assert (r - 1) * n == r * n - n;
  }

  /** A higher total never gives a lower share. */
  lemma FareMonotoneInTotal(t1: int, t2: int, seats: nat)
    requires t1 <= t2
    ensures FarePerPerson(t1, seats) <= FarePerPerson(t2, seats)
  {
    FareIsSmallest(t1, seats, FarePerPerson(t2, seats));
  }

  /** Offering more seats never raises the share of a non-negative fare. */
  lemma FareAntitoneInSeats(totalFare: int, s1: nat, s2: nat)
    requires 0 <= totalFare && s1 <= s2
    ensures FarePerPerson(totalFare, s2) <= FarePerPerson(totalFare, s1)
  {
    var f1 := FarePerPerson(totalFare, s1);
    FareIsSmallest(0, s1, 0);
    FareMonotoneInTotal(0, totalFare, s1);
    assert f1 >= 0;
    var d := HeadCount(s2) - HeadCount(s1);
    assert f1 * HeadCount(s2) == f1 * HeadCount(s1) + f1 * d;
    FareIsSmallest(totalFare, s2, f1);
  }

  /** For every ride the ledger accepts (fare at least 100, one to four seats) the
      share is positive and strictly below the total, so the saving is positive. */
  lemma SplitOfValidRide(totalFare: int, seats: nat)
    requires totalFare >= 100 && 1 <= seats <= 4
    ensures 0 < FarePerPerson(totalFare, seats) < totalFare
    ensures 0 < Savings(totalFare, seats) < totalFare
  {
    var f := FarePerPerson(totalFare, seats);
    if f <= 0 {
      MulMonotone(f, 0, HeadCount(seats));
    }
    FareAntitoneInSeats(totalFare, 1, seats);
    var half := (totalFare + 1) / 2;
    assert half * 2 >= totalFare;
    FareIsSmallest(totalFare, 1, half);
  }

  /** The worked examples: 600 over 2 seats is 200 each, over 1 seat 300 each,
      and 601 over 2 seats rounds up to 201. */
  lemma FareExamples()
    ensures FarePerPerson(600, 2) == 200
    ensures FarePerPerson(600, 1) == 300
    ensures FarePerPerson(601, 2) == 201
    ensures Savings(600, 2) == 400
  {
  }
}

=== FILE: find_driver.dfy ===
/**
  The "Find Driver" page of the web client: the vehicle and search filters over
  the driver directory, the count of available drivers among those shown, and
  the availability line above the list.
*/
module FindDriver {
  import opened Wrappers
  import opened Text
  import opened Seqs

  datatype VehicleType = Auto | Sedan | SUV | Hatchback {
    function Name(): string {
      match this
      case Auto => "Auto"
      case Sedan => "Sedan"
      case SUV => "SUV"
      case Hatchback => "Hatchback"
    }
  }

  datatype Availability = Available | Busy | Offline

  /** A directory entry, with the fields the page reads. */
  datatype Driver = Driver(
    id: string, name: string, vehicleType: VehicleType, phone: string,
    availability: Availability, routes: seq<string>)

  /** The vehicle select: "all" or one vehicle type's name, compared exactly. */
  predicate MatchesVehicle(d: Driver, vehicleFilter: string) {
    vehicleFilter == "all" || d.vehicleType.Name() == vehicleFilter
  }

  /** The search box: empty, or a case-blind substring of the name or of a route. */
  predicate MatchesQuery(d: Driver, query: string) {
    || query == ""
    || Includes(Lower(d.name), Lower(query))
    || exists i :: 0 <= i < |d.routes| && Includes(Lower(d.routes[i]), Lower(query))
  }

  /** `filteredDrivers`: the drivers, in order, that pass both checks. */
  function FilteredDrivers(drivers: seq<Driver>, vehicleFilter: string, query: string): (r: seq<Driver>)
    ensures IsSubsequence(r, drivers)
    ensures forall d :: d in r <==> d in drivers && MatchesVehicle(d, vehicleFilter) && MatchesQuery(d, query)
  {
    Filter(drivers, (d: Driver) => MatchesVehicle(d, vehicleFilter) && MatchesQuery(d, query))
  }

  /** With the vehicle filter on "all" and an empty search, every driver is shown. */
  lemma NoFiltersShowAll(drivers: seq<Driver>)
    ensures FilteredDrivers(drivers, "all", "") == drivers
  {
  }

  /** The search matches exactly when the lowercased query occurs in the
      lowercased name or in some lowercased route. */
  lemma QueryIsSubstringMatch(d: Driver, query: string)
    ensures MatchesQuery(d, query) <==>
      || query == ""
      || OccursIn(Lower(query), Lower(d.name))
      || exists i :: 0 <= i < |d.routes| && OccursIn(Lower(query), Lower(d.routes[i]))
  {
    IncludesIsOccurrence(Lower(d.name), Lower(query));
    forall i | 0 <= i < |d.routes|
      ensures Includes(Lower(d.routes[i]), Lower(query)) <==> OccursIn(Lower(query), Lower(d.routes[i]))
    {
      IncludesIsOccurrence(Lower(d.routes[i]), Lower(query));
    }
  }

  /** The search ignores the case of the query. */
  lemma QueryIgnoresCase(d: Driver, query: string)
    ensures MatchesQuery(d, Lower(query)) <==> MatchesQuery(d, query)
  {
    LowerIdempotent(query);
  }

  predicate IsAvailable(d: Driver) {
    d.availability == Available
  }

  /** `availableDrivers`: how many of the shown drivers are available, counted by
      position. */
  function AvailableCount(shown: seq<Driver>): (n: nat)
    ensures n == |set i | 0 <= i < |shown| && IsAvailable(shown[i])|
    ensures n <= |shown|
    ensures n == |shown| <==> forall d :: d in shown ==> IsAvailable(d)
  {
    AvailableCountFacts(shown);
    |Filter(shown, IsAvailable)|
  }

  lemma AvailableCountFacts(shown: seq<Driver>)
    ensures |Filter(shown, IsAvailable)| == |set i | 0 <= i < |shown| && IsAvailable(shown[i])|
    ensures |Filter(shown, IsAvailable)| == |shown| <==> forall d :: d in shown ==> IsAvailable(d)
  {
    FilterLengthCountsPositions(shown, IsAvailable);
    assert Positions(shown, IsAvailable) == set i | 0 <= i < |shown| && IsAvailable(shown[i]);
    FilterKeepsAllIffAll(shown, IsAvailable);
  }

  /** The count message: the number, a space, and "drivers available now". */
  function CountLine(count: nat): (t: string)
    ensures Number(Before(t, ' ')) == Some(count)
    ensures |t| > |" drivers available now"|
  {
    var t := ShowNat(count) + " drivers available now";
    assert t == ShowNat(count) + [' '] + "drivers available now";
    NumberBeforeSeparator(count, ' ', "drivers available now");
    t
  }

  /** The availability line: the error first, then loading, then the count. A
      number leads the line exactly when the drivers have loaded, and it is the
      count. */
  function AvailabilityText(isError: bool, isLoading: bool, count: nat): (t: string)
    ensures Number(Before(t, ' ')).Some? <==> !isError && !isLoading
    ensures !isError && !isLoading ==> Number(Before(t, ' ')) == Some(count)
  {
    if isError then "Unable to load drivers"
    else if isLoading then "Checking driver availability…"
    else CountLine(count)
  }
}

=== FILE: ledger.dfy ===
/**
  The ride ledger of the API server: ride records, the validation of a new
  ride's payload, the join rule with its four ordered checks, the listing
  order, and the serialized form the clients receive.
*/
module Ledger {
  import opened Wrappers
  import opened Text
  import Seqs

  /** Store identifiers (MongoDB object ids) and clock readings are opaque; they
      are modelled as naturals. */
  type UserId = nat
  type RideId = nat
  type Timestamp = nat

  datatype Participant = Participant(userId: UserId, name: string, joinedAt: Timestamp)

  datatype RideStatus = Upcoming | Completed

  /** A stored ride. `createdAt` is the creation time the store stamps. */
  datatype Ride = Ride(
    id: RideId,
    from: string,
    to: string,
    date: string,
    time: string,
    seats: int,
    totalFare: int,
    note: Option<string>,
    postedBy: string,
    verified: bool,
    status: RideStatus,
    hostId: UserId,
    participants: seq<Participant>,
    createdAt: Timestamp)

  /** The authenticated caller of a ride operation. */
  datatype Caller = Caller(id: UserId, name: string)

  // ---------------------------------------------------------------------------
  // Invariants of a stored ride

  predicate Joined(ps: seq<Participant>, user: UserId) {
    exists i :: 0 <= i < |ps| && ps[i].userId == user
  }

  predicate DistinctParticipants(ps: seq<Participant>) {
    forall i, j :: 0 <= i < j < |ps| ==> ps[i].userId != ps[j].userId
  }

  /** The schema bounds of a ride (one to four seats, a fare of at least 100) and
      the join invariants: no more participants than seats, the host never among
      them, and nobody twice. */
  predicate WellFormed(r: Ride) {
    && 1 <= r.seats <= 4
    && r.totalFare >= 100
    && |r.participants| <= r.seats
    && !Joined(r.participants, r.hostId)
    && DistinctParticipants(r.participants)
  }

  // ---------------------------------------------------------------------------
  // Creating a ride

  /** The optional `note` of a ride body: absent, a string, or a value of another
      JSON type. */
  datatype NoteField = NoNote | NoteText(text: string) | NoteOfOtherType

  /** The note a ride keeps: the string, when one was sent. */
  function NoteValue(n: NoteField): Option<string> {
    if n.NoteText? then Some(n.text) else None
  }

  /** The request body of `POST /api/rides` after `seats` and `totalFare` went
      through `Number(...)`: `None` for a missing or non-string field, and for a
      number that is NaN. */
  datatype RawPayload = RawPayload(
    from: Option<string>,
    to: Option<string>,
    date: Option<string>,
    time: Option<string>,
    seats: Option<int>,
    totalFare: Option<int>,
    note: NoteField)

  /** A payload the ride schema accepted. */
  datatype RidePayload = RidePayload(
    from: string, to: string, date: string, time: string,
    seats: int, totalFare: int, note: Option<string>)

  /** The refusals of `POST /api/rides`: the request schema's 400, and the
      database schema's refusal at insertion, which the handler does not catch,
      so the request fails uncaught: nothing is stored and no 201 is sent (a 500
      under Express 5). */
  datatype CreateError = InvalidRidePayload | RideNotStored

  /** The ride schema: origin and destination of at least two characters, date and
      time present, one to four seats, a total fare of at least 100, and a note
      that is absent or a string. */
  predicate PayloadAcceptable(p: RawPayload) {
    && p.from.Some? && |p.from.value| >= 2
    && p.to.Some? && |p.to.value| >= 2
    && p.date.Some? && p.time.Some?
    && p.seats.Some? && 1 <= p.seats.value <= 4
    && p.totalFare.Some? && p.totalFare.value >= 100
    && !p.note.NoteOfOtherType?
  }

  function ValidatePayload(p: RawPayload): (r: Result<RidePayload, CreateError>)
    ensures r.Success? <==> PayloadAcceptable(p)
    ensures r.Success? ==>
      && r.value.from == p.from.value && r.value.to == p.to.value
      && r.value.date == p.date.value && r.value.time == p.time.value
      && r.value.seats == p.seats.value && r.value.totalFare == p.totalFare.value
      && r.value.note == NoteValue(p.note)
  {
    if p.from.None? || |p.from.value| < 2 then Failure(InvalidRidePayload)
    else if p.to.None? || |p.to.value| < 2 then Failure(InvalidRidePayload)
    else if p.date.None? || p.time.None? then Failure(InvalidRidePayload)
    else if p.seats.None? || p.seats.value < 1 || p.seats.value > 4 then Failure(InvalidRidePayload)
    else if p.totalFare.None? || p.totalFare.value < 100 then Failure(InvalidRidePayload)
    else if p.note.NoteOfOtherType? then Failure(InvalidRidePayload)
    else Success(RidePayload(p.from.value, p.to.value, p.date.value, p.time.value,
                             p.seats.value, p.totalFare.value, NoteValue(p.note)))
  }

  /** The database schema's checks that the request schema does not make: the
      required strings `date`, `time` and `postedBy` are refused when empty (the
      other bounds are the request schema's own). */
  predicate Storable(host: Caller, p: RidePayload) {
    p.date != "" && p.time != "" && host.name != ""
  }

  /** The record inserted for a validated payload. */
  function NewRide(id: RideId, host: Caller, p: RidePayload, now: Timestamp): Ride {
    Ride(id, p.from, p.to, p.date, p.time, p.seats, p.totalFare, p.note,
         host.name, true, Upcoming, host.id, [], now)
  }

  /** A new ride is upcoming, verified, owned and named by its host, has nobody
      aboard, carries the payload's fields, and meets every ride invariant. */
  lemma NewRideFacts(id: RideId, host: Caller, raw: RawPayload, now: Timestamp)
    requires ValidatePayload(raw).Success?
    ensures var r := NewRide(id, host, ValidatePayload(raw).value, now);
      && r.participants == [] && r.status == Upcoming && r.verified
      && r.hostId == host.id && r.postedBy == host.name
      && r.from == raw.from.value && r.to == raw.to.value
      && r.date == raw.date.value && r.time == raw.time.value
      && r.seats == raw.seats.value && r.totalFare == raw.totalFare.value
      && r.note == NoteValue(raw.note) && r.id == id && r.createdAt == now
      && WellFormed(r)
  {
  }

  // ---------------------------------------------------------------------------
  // Joining a ride

  /** The four refusals of `POST /api/rides/:rideId/join`: 404 for a missing
      ride, 400 for the other three. */
  datatype JoinError = RideNotFound | AlreadyHost | AlreadyJoined | RideFull

  /** The join rule on the ride loaded for the request (`None` when there is no
      such ride): the checks run in order, the first failing one answers, and
      only when all pass is the caller appended. */
  function JoinRide(ride: Option<Ride>, caller: Caller, now: Timestamp): (r: Result<Ride, JoinError>)
  {
    if ride.None? then Failure(RideNotFound)
    else if ride.value.hostId == caller.id then Failure(AlreadyHost)
    else if Joined(ride.value.participants, caller.id) then Failure(AlreadyJoined)
    else if |ride.value.participants| >= ride.value.seats then Failure(RideFull)
    else Success(ride.value.(participants := ride.value.participants + [Participant(caller.id, caller.name, now)]))
  }

  /** Each refusal is returned exactly when its own check fails and every check
      before it passed; a join succeeds exactly when all four pass. */
  lemma JoinCheckOrder(ride: Option<Ride>, caller: Caller, now: Timestamp)
    ensures JoinRide(ride, caller, now) == Failure(RideNotFound) <==> ride.None?
    ensures JoinRide(ride, caller, now) == Failure(AlreadyHost) <==>
      ride.Some? && ride.value.hostId == caller.id
    ensures JoinRide(ride, caller, now) == Failure(AlreadyJoined) <==>
      ride.Some? && ride.value.hostId != caller.id && Joined(ride.value.participants, caller.id)
    ensures JoinRide(ride, caller, now) == Failure(RideFull) <==>
      ride.Some? && ride.value.hostId != caller.id && !Joined(ride.value.participants, caller.id)
      && |ride.value.participants| >= ride.value.seats
    ensures JoinRide(ride, caller, now).Success? <==>
      ride.Some? && ride.value.hostId != caller.id && !Joined(ride.value.participants, caller.id)
      && |ride.value.participants| < ride.value.seats
  {
  }

  /** The host is refused whatever the ride's capacity and participants. */
  lemma HostCannotJoin(ride: Ride, caller: Caller, now: Timestamp)
    requires caller.id == ride.hostId
    ensures JoinRide(Some(ride), caller, now) == Failure(AlreadyHost)
  {
  }

  /** A successful join appends exactly one entry, carrying the caller's id and
      name, after the earlier participants, and changes no other field. */
  lemma JoinAppendsCaller(ride: Ride, caller: Caller, now: Timestamp)
    requires JoinRide(Some(ride), caller, now).Success?
    ensures var r := JoinRide(Some(ride), caller, now).value;
      && |r.participants| == |ride.participants| + 1
      && r.participants[..|ride.participants|] == ride.participants
      && r.participants[|ride.participants|] == Participant(caller.id, caller.name, now)
      && r == ride.(participants := r.participants)
  {
  }

  /** Every join keeps a well-formed ride well-formed: capacity is respected, the
      host stays out, and no user is listed twice. */
  lemma JoinPreservesWellFormed(ride: Ride, caller: Caller, now: Timestamp)
    requires WellFormed(ride)
    ensures JoinRide(Some(ride), caller, now).Success? ==> WellFormed(JoinRide(Some(ride), caller, now).value)
  {
    if JoinRide(Some(ride), caller, now).Success? {
      var ps := JoinRide(Some(ride), caller, now).value.participants;
      assert ps == ride.participants + [Participant(caller.id, caller.name, now)];
      assert forall i :: 0 <= i < |ride.participants| ==> ps[i] == ride.participants[i];
      forall i, j | 0 <= i < j < |ps|
        ensures ps[i].userId != ps[j].userId
      {
        if j == |ride.participants| {
          assert ride.participants[i].userId != caller.id;
        }
      }
    }
  }

  function Min(a: int, b: int): int {
    if a <= b then a else b
  }

  /** The ride after each caller in turn attempts to join it; a refused attempt
      leaves the ride as it was. */
  function JoinEach(ride: Ride, callers: seq<Caller>, now: Timestamp): Ride
    decreases |callers|
  {
    if callers == [] then ride
    else
      var next := match JoinRide(Some(ride), callers[0], now)
                  case Success(r) => r
                  case Failure(_) => ride;
      JoinEach(next, callers[1..], now)
  }

  /** Sequential joins by distinct newcomers admit exactly as many as there are
      free seats: the participant count ends at the smaller of the seat count and
      the number of people who asked. */
  lemma {:induction false} SequentialJoinsFillToCapacity(ride: Ride, callers: seq<Caller>, now: Timestamp)
    requires |ride.participants| <= ride.seats
    requires forall i, j :: 0 <= i < j < |callers| ==> callers[i].id != callers[j].id
    requires forall i :: 0 <= i < |callers| ==>
      callers[i].id != ride.hostId && !Joined(ride.participants, callers[i].id)
    ensures |JoinEach(ride, callers, now).participants| ==
      Min(ride.seats, |ride.participants| + |callers|)
    decreases |callers|
  {
    if callers != [] {
      var c := callers[0];
      var res := JoinRide(Some(ride), c, now);
      var next := if res.Success? then res.value else ride;
      assert JoinEach(ride, callers, now) == JoinEach(next, callers[1..], now);
      forall i | 0 <= i < |callers[1..]|
        ensures callers[1..][i].id != next.hostId && !Joined(next.participants, callers[1..][i].id)
      {
        assert callers[1..][i] == callers[i + 1];
      }
      SequentialJoinsFillToCapacity(next, callers[1..], now);
    }
  }

  /** Two newcomers fill a two-seat ride of fare 600; a third is refused as full
      and the participant count stays at two. */
  lemma TwoSeatScenario(ride: Ride, a: Caller, b: Caller, c: Caller, t1: Timestamp, t2: Timestamp, t3: Timestamp)
    requires ride.seats == 2 && ride.totalFare == 600 && ride.participants == []
    requires a.id != ride.hostId && b.id != ride.hostId && c.id != ride.hostId
    requires a.id != b.id && b.id != c.id && a.id != c.id
    ensures JoinRide(Some(ride), a, t1).Success?
    ensures var r1 := JoinRide(Some(ride), a, t1).value;
      && JoinRide(Some(r1), b, t2).Success?
      && var r2 := JoinRide(Some(r1), b, t2).value;
      && |r2.participants| == 2
      && JoinRide(Some(r2), c, t3) == Failure(RideFull)
  {
    var r1 := JoinRide(Some(ride), a, t1).value;
    assert !Joined(r1.participants, b.id) by {
      assert r1.participants == [Participant(a.id, a.name, t1)];
    }
    var r2 := JoinRide(Some(r1), b, t2).value;
    assert r2.participants == [Participant(a.id, a.name, t1), Participant(b.id, b.name, t2)];
    assert !Joined(r2.participants, c.id);
  }

  // ---------------------------------------------------------------------------
  // Listing order: date, then time, then creation time, ascending

  predicate ListedBefore(a: Ride, b: Ride) {
    || LexLess(a.date, b.date)
    || (a.date == b.date && (LexLess(a.time, b.time) || (a.time == b.time && a.createdAt <= b.createdAt)))
  }

  lemma ListedBeforeTotal(a: Ride, b: Ride)
    ensures ListedBefore(a, b) || ListedBefore(b, a)
  {
    LexLessTotal(a.date, b.date);
    LexLessTotal(a.time, b.time);
  }

  lemma ListedBeforeTransitive(a: Ride, b: Ride, c: Ride)
    requires ListedBefore(a, b) && ListedBefore(b, c)
    ensures ListedBefore(a, c)
  {
    if LexLess(a.date, b.date) && LexLess(b.date, c.date) {
      LexLessTransitive(a.date, b.date, c.date);
    }
    if a.date == b.date == c.date && LexLess(a.time, b.time) && LexLess(b.time, c.time) {
      LexLessTransitive(a.time, b.time, c.time);
    }
  }

  predicate SortedForListing(s: seq<Ride>) {
    forall i, j :: 0 <= i < j < |s| ==> ListedBefore(s[i], s[j])
  }

  /** Insert a ride after every ride listed before it. */
  function InsertListed(s: seq<Ride>, x: Ride): (r: seq<Ride>)
    ensures |r| == |s| + 1
    ensures multiset(r) == multiset(s) + multiset{x}
    ensures forall y :: y in r <==> y in s || y == x
  {
    if s == [] || ListedBefore(x, s[0]) then [x] + s
    else
      assert s == [s[0]] + s[1..];
      [s[0]] + InsertListed(s[1..], x)
  }

  lemma {:induction false} InsertListedSorted(s: seq<Ride>, x: Ride)
    requires SortedForListing(s)
    ensures SortedForListing(InsertListed(s, x))
  {
    if s == [] {
    } else if ListedBefore(x, s[0]) {
      forall j | 0 <= j < |s|
        ensures ListedBefore(x, s[j])
      {
        if j > 0 {
          ListedBeforeTransitive(x, s[0], s[j]);
        }
      }
    } else {
      ListedBeforeTotal(x, s[0]);
      var t := InsertListed(s[1..], x);
      InsertListedSorted(s[1..], x);
      forall y | y in t
        ensures ListedBefore(s[0], y)
      {
        if y != x {
          var k :| 0 <= k < |s[1..]| && s[1..][k] == y;
          assert s[k + 1] == y;
        }
      }
      var r := [s[0]] + t;
      forall i, j | 0 <= i < j < |r|
        ensures ListedBefore(r[i], r[j])
      {
        if i == 0 {
          assert r[j] == t[j - 1] && t[j - 1] in t;
        } else {
          assert r[i] == t[i - 1] && r[j] == t[j - 1];
        }
      }
    }
  }

  // ---------------------------------------------------------------------------
  // The store

  function Lookup(rides: map<RideId, Ride>, id: RideId): Option<Ride> {
    if id in rides then Some(rides[id]) else None
  }

  /** The ride collection, kept in memory. */
  class RideStore {
    var rides: map<RideId, Ride>
    var nextId: RideId

    /** Every stored ride sits under its own id, below the next id to hand out,
        and is well-formed. */
    ghost predicate Valid()
      reads this
    {
      forall id :: id in rides ==> id < nextId && rides[id].id == id && WellFormed(rides[id])
    }

    constructor ()
      ensures Valid() && rides == map[] && nextId == 0
    {
      rides := map[];
      nextId := 0;
    }

    /** `POST /api/rides`: validate the payload, then insert a ride owned by the
        caller with nobody aboard, unless the database schema refuses it. */
    method Create(host: Caller, payload: RawPayload, now: Timestamp) returns (r: Result<Ride, CreateError>)
      requires Valid()
      modifies this
      ensures Valid()
      ensures r == Failure(InvalidRidePayload) <==> !PayloadAcceptable(payload)
      ensures r == Failure(RideNotStored) <==>
        PayloadAcceptable(payload) && !Storable(host, ValidatePayload(payload).value)
      ensures r.Failure? ==> rides == old(rides) && nextId == old(nextId)
      ensures PayloadAcceptable(payload) && Storable(host, ValidatePayload(payload).value) ==>
        && r == Success(NewRide(old(nextId), host, ValidatePayload(payload).value, now))
        && old(nextId) !in old(rides)
        && rides == old(rides)[old(nextId) := r.value]
        && nextId == old(nextId) + 1
    {
      var parsed := ValidatePayload(payload);
      if parsed.Failure? {
        return Failure(parsed.error);
      }
      if !Storable(host, parsed.value) {
        return Failure(RideNotStored);
      }
      var ride := NewRide(nextId, host, parsed.value, now);
      rides := rides[nextId := ride];
      nextId := nextId + 1;
      r := Success(ride);
    }

    /** `POST /api/rides/:rideId/join`: load the ride, run the checks in order, and
        on success append the caller and save. */
    method Join(rideId: RideId, caller: Caller, now: Timestamp) returns (r: Result<Ride, JoinError>)
      requires Valid()
      modifies this
      ensures Valid()
      ensures r == JoinRide(Lookup(old(rides), rideId), caller, now)
      ensures rides == if r.Success? then old(rides)[rideId := r.value] else old(rides)
      ensures nextId == old(nextId)
    {
      if rideId !in rides {
        return Failure(RideNotFound);
      }
      var ride := rides[rideId];
      if ride.hostId == caller.id {
        return Failure(AlreadyHost);
      }
      var alreadyJoined := Joined(ride.participants, caller.id);
      if alreadyJoined {
        return Failure(AlreadyJoined);
      }
      if |ride.participants| >= ride.seats {
        return Failure(RideFull);
      }
      JoinPreservesWellFormed(ride, caller, now);
      ride := ride.(participants := ride.participants + [Participant(caller.id, caller.name, now)]);
      rides := rides[rideId := ride];
      r := Success(ride);
    }

    /** `GET /api/rides`: every stored ride once, ordered by date, then time,
        then creation time. */
    method List() returns (out: seq<Ride>)
      requires Valid()
      ensures SortedForListing(out)
      ensures |out| == |rides|
      ensures forall x :: x in out <==> x in rides.Values
    {
      var remaining := rides.Keys;
      out := [];
      while remaining != {}
        invariant remaining <= rides.Keys
        invariant SortedForListing(out)
        invariant |out| + |remaining| == |rides|
        invariant forall k :: k in rides && k !in remaining ==> rides[k] in out
        invariant forall x :: x in out ==> x.id in rides && x.id !in remaining && rides[x.id] == x
        decreases remaining
      {
        var k :| k in remaining;
        InsertListedSorted(out, rides[k]);
        out := InsertListed(out, rides[k]);
        remaining := remaining - {k};
      }
      forall x | x in rides.Values
        ensures x in out
      {
        var k :| k in rides && rides[k] == x;
      }
    }
  }

  // ---------------------------------------------------------------------------
  // Serialized form (`mapRide`), the ride shape the clients read

  datatype ParticipantView = ParticipantView(userId: string, name: string, joinedAt: Timestamp)

  datatype RideView = RideView(
    id: string,
    from: string,
    to: string,
    date: string,
    time: string,
    seats: int,
    totalFare: int,
    postedBy: string,
    note: Option<string>,
    verified: bool,
    status: RideStatus,
    hostId: string,
    participants: seq<ParticipantView>)

  /** The string form of a store id (`_id.toString()`). */
  function IdString(id: nat): string {
    ShowNat(id)
  }

  /** A participant entry as sent: the user id reads back as the same number. */
  function MapParticipant(p: Participant): (pv: ParticipantView)
    ensures Number(pv.userId) == Some(p.userId)
    ensures pv.name == p.name && pv.joinedAt == p.joinedAt
  {
    NumberShowNat(p.userId);
    ParticipantView(IdString(p.userId), p.name, p.joinedAt)
  }

  /** `mapRide`: the ride as the clients receive it. Its id strings read back as
      the ride's, host's and participants' ids, every other field is carried over,
      and a well-formed ride gives a view that keeps the ride invariants in the
      clients' terms (compared as strings). */
  function MapRide(r: Ride): (v: RideView)
    ensures Number(v.id) == Some(r.id) && Number(v.hostId) == Some(r.hostId)
    ensures |v.participants| == |r.participants|
    ensures forall i :: 0 <= i < |r.participants| ==>
      && Number(v.participants[i].userId) == Some(r.participants[i].userId)
      && v.participants[i].name == r.participants[i].name
      && v.participants[i].joinedAt == r.participants[i].joinedAt
    ensures (v.from, v.to, v.date, v.time, v.note) == (r.from, r.to, r.date, r.time, r.note)
    ensures (v.seats, v.totalFare, v.postedBy, v.verified, v.status) == (r.seats, r.totalFare, r.postedBy, r.verified, r.status)
    ensures WellFormed(r) ==> ViewWellFormed(v)
  {
    NumberShowNat(r.id);
    NumberShowNat(r.hostId);
    var v := RideView(IdString(r.id), r.from, r.to, r.date, r.time, r.seats, r.totalFare, r.postedBy,
                      r.note, r.verified, r.status, IdString(r.hostId),
                      seq(|r.participants|, i requires 0 <= i < |r.participants| => MapParticipant(r.participants[i])));
    assert WellFormed(r) ==> ViewWellFormed(v) by {
      if WellFormed(r) {
        forall i | 0 <= i < |v.participants|
          ensures v.participants[i].userId != v.hostId
        {
          IdStringInjective(r.participants[i].userId, r.hostId);
        }
        forall i, j | 0 <= i < j < |v.participants|
          ensures v.participants[i].userId != v.participants[j].userId
        {
          IdStringInjective(r.participants[i].userId, r.participants[j].userId);
        }
      }
    }
    v
  }

  /** The ids a client compares are strings; since the string form is injective,
      comparing them is comparing the ids. */
  lemma IdStringInjective(a: nat, b: nat)
    ensures IdString(a) == IdString(b) <==> a == b
  {
    if IdString(a) == IdString(b) {
      ShowNatInjective(a, b);
    }
  }

  /** What a client reads about a ride it was sent: the host's id string is not
      among the participants' id strings, no participant id string appears twice,
      and the participant count is within the seats. */
  predicate ViewWellFormed(v: RideView) {
    && 1 <= v.seats <= 4
    && v.totalFare >= 100
    && |v.participants| <= v.seats
    && (forall i :: 0 <= i < |v.participants| ==> v.participants[i].userId != v.hostId)
    && (forall i, j :: 0 <= i < j < |v.participants| ==> v.participants[i].userId != v.participants[j].userId)
  }
}

=== FILE: legacy_rides.dfy ===
/**
  The earlier, mock-data version of the ride browser: the same time-slot
  classifier and filter over a fixed list of rides and a fixed destination list.
*/
module LegacyRides {
  import opened Wrappers
  import opened Seqs
  import RideBrowser
  import Ledger

  /** The ride shape of the earlier client: no host and no participants. */
  datatype LegacyRide = LegacyRide(
    id: string, from: string, to: string, date: string, time: string,
    seats: int, totalFare: int, postedBy: string, note: Option<string>,
    verified: bool, status: Option<Ledger.RideStatus>)

  /** The fixed destination list of the filter panel. */
  const LegacyDestinations: seq<string> := ["all", "Kozhikode Railway Station", "Calicut Airport"]

  lemma LegacyDestinationsStartWithAll()
    ensures |LegacyDestinations| == 3 && LegacyDestinations[0] == "all"
    ensures "all" !in LegacyDestinations[1..]
  {
  }

  /** The legacy time slot function is the same classifier as the current one. */
  function LegacyTimeSlot(time: string): (s: string)
    ensures s == RideBrowser.GetTimeSlot(time)
    ensures s in ["morning", "afternoon", "evening", "night"]
  {
    RideBrowser.TimeSlotIsOneOfFour(time);
    RideBrowser.GetTimeSlot(time)
  }

  /** The filtered list over the fixed mock rides (passed in, as their data file
      is not part of this model). */
  function LegacyFilteredRides(mockRides: seq<LegacyRide>, f: RideBrowser.Filters): (r: seq<LegacyRide>)
    ensures IsSubsequence(r, mockRides)
    ensures forall v :: v in r <==>
      && v in mockRides
      && (f.to == "all" || v.to == f.to)
      && (f.date == "" || v.date == f.date)
      && (f.timeSlot == "all" || LegacyTimeSlot(v.time) == f.timeSlot)
  {
    Filter(mockRides, (v: LegacyRide) => RideBrowser.Accepts(f, v.to, v.date, v.time))
  }

  lemma LegacyDefaultFiltersKeepAll(mockRides: seq<LegacyRide>)
    ensures LegacyFilteredRides(mockRides, RideBrowser.DefaultFilters) == mockRides
  {
  }

  /** The current ride shape seen as a legacy ride. */
  function AsLegacy(v: Ledger.RideView): LegacyRide {
    LegacyRide(v.id, v.from, v.to, v.date, v.time, v.seats, v.totalFare, v.postedBy,
               v.note, v.verified, Some(v.status))
  }

  function LegacyOf(rides: seq<Ledger.RideView>): (r: seq<LegacyRide>)
    ensures |r| == |rides| && forall i :: 0 <= i < |rides| ==> r[i] == AsLegacy(rides[i])
  {
    seq(|rides|, i requires 0 <= i < |rides| => AsLegacy(rides[i]))
  }

  /** The two browsers agree: a loaded ride passes the current filter exactly
      when its legacy shape survives the legacy filter over the same list. */
  lemma LegacyAgreesWithCurrent(rides: seq<Ledger.RideView>, f: RideBrowser.Filters, v: Ledger.RideView)
    requires v in rides
    ensures v in RideBrowser.FilteredRides(rides, f) <==> AsLegacy(v) in LegacyFilteredRides(LegacyOf(rides), f)
  {
    var i :| 0 <= i < |rides| && rides[i] == v;
    assert LegacyOf(rides)[i] == AsLegacy(v);
  }
}

=== FILE: my_rides.dfy ===
/**
  The "My Rides" page of the web client: the loaded rides split into those the
  signed-in user posted and those the user joined, the full flag of a posted
  ride, the fare shown for a joined ride, and what each tab shows.
*/
module MyRides {
  import opened Wrappers
  import opened Seqs
  import Ledger
  import Fare
  import RideDetail

  type SessionUser = RideDetail.SessionUser

  predicate HasParticipant(v: Ledger.RideView, userId: string) {
    exists i :: 0 <= i < |v.participants| && v.participants[i].userId == userId
  }

  /** `postedRides`: nothing without a user, else the rides the user hosts, in order. */
  function PostedRides(rides: seq<Ledger.RideView>, user: Option<SessionUser>): (r: seq<Ledger.RideView>)
    ensures user.None? ==> r == []
    ensures IsSubsequence(r, rides)
    ensures forall v :: v in r <==> user.Some? && v in rides && v.hostId == user.value.id
  {
    if user.None? then [] else Filter(rides, (v: Ledger.RideView) => v.hostId == user.value.id)
  }

  /** `joinedRides`: nothing without a user, else the rides that list the user
      among their participants, in order. */
  function JoinedRides(rides: seq<Ledger.RideView>, user: Option<SessionUser>): (r: seq<Ledger.RideView>)
    ensures user.None? ==> r == []
    ensures IsSubsequence(r, rides)
    ensures forall v :: v in r <==> user.Some? && v in rides && HasParticipant(v, user.value.id)
  {
    if user.None? then [] else Filter(rides, (v: Ledger.RideView) => HasParticipant(v, user.value.id))
  }

  /** On rides the ledger produced, the two tabs never show the same ride: the
      host is never a participant of their own ride. */
  lemma PostedAndJoinedDisjoint(rides: seq<Ledger.RideView>, user: Option<SessionUser>, v: Ledger.RideView)
    requires forall w :: w in rides ==> Ledger.ViewWellFormed(w)
    ensures !(v in PostedRides(rides, user) && v in JoinedRides(rides, user))
  {
  }

  /** `seatsFilled >= ride.seats`, with `seatsFilled` the participant count. */
  predicate IsFull(v: Ledger.RideView) {
    |v.participants| >= v.seats
  }

  /** The full badge of this page and the disabled join button of the ride
      dialog agree on every ride. */
  lemma IsFullAgreesWithDialog(v: Ledger.RideView)
    ensures IsFull(v) <==> RideDetail.IsRideFull(v)
  {
  }

  /** The fare shown on a joined ride's card: `ceil(totalFare / (seats + 1))`. */
  function JoinedRideFare(v: Ledger.RideView): (f: int)
    requires v.seats >= 0
    ensures f * (v.seats + 1) >= v.totalFare
    ensures (f - 1) * (v.seats + 1) < v.totalFare
  {
    Fare.FarePerPerson(v.totalFare, v.seats)
  }

  /** The fare on this page is the dialog's fare per person. */
  lemma JoinedRideFareIsDialogFare(v: Ledger.RideView)
    requires Ledger.ViewWellFormed(v)
    ensures JoinedRideFare(v) == Fare.FarePerPerson(v.totalFare, v.seats)
    ensures 0 < JoinedRideFare(v) < v.totalFare
  {
    RideDetail.DialogFareBreakdown(v);
  }

  /** What a tab shows; the error card wins over the loading card here. Exactly
      one view is chosen, and ride cards only for a non-empty list, all of it. */
  datatype TabBody = ErrorCard(message: string) | LoadingCard(message: string) | RideCards(rides: seq<Ledger.RideView>) | EmptyCard(message: string)

  function TabView(isError: bool, isLoading: bool, errorMessage: string,
                   shown: seq<Ledger.RideView>, loadingText: string, emptyText: string): (b: TabBody)
    ensures b.ErrorCard? <==> isError
    ensures b.LoadingCard? <==> !isError && isLoading
    ensures b.RideCards? <==> !isError && !isLoading && shown != []
    ensures b.EmptyCard? <==> !isError && !isLoading && shown == []
    ensures b.RideCards? ==> b.rides == shown
  {
    if isError then ErrorCard(if errorMessage == "" then "Unable to load your rides." else errorMessage)
    else if isLoading then LoadingCard(loadingText)
    else if shown != [] then RideCards(shown)
    else EmptyCard(emptyText)
  }

  /** The "Posted" tab: the error card, else the loading card, else a card for
      each ride the user hosts in loading order, or the empty card when there is
      none. */
  function PostedTab(isError: bool, isLoading: bool, errorMessage: string,
                     rides: seq<Ledger.RideView>, user: SessionUser): (b: TabBody)
    ensures isError ==> b == ErrorCard(if errorMessage == "" then "Unable to load your rides." else errorMessage)
    ensures !isError && isLoading ==> b == LoadingCard("Loading your posted rides...")
    ensures !isError && !isLoading ==>
      (b.RideCards? <==> exists v :: v in rides && v.hostId == user.id)
    ensures !isError && !isLoading && !b.RideCards? ==> b == EmptyCard("You haven't posted any rides yet.")
    ensures b.RideCards? ==>
      && b.rides == PostedRides(rides, Some(user))
      && forall v :: v in b.rides ==> v in rides && v.hostId == user.id
  {
    TabView(isError, isLoading, errorMessage, PostedRides(rides, Some(user)),
            "Loading your posted rides...", "You haven't posted any rides yet.")
  }

  /** The "Joined" tab: the error card, else the loading card, else a card for
      each ride listing the user as a participant in loading order, or the empty
      card when there is none. */
  function JoinedTab(isError: bool, isLoading: bool, errorMessage: string,
                     rides: seq<Ledger.RideView>, user: SessionUser): (b: TabBody)
    ensures isError ==> b == ErrorCard(if errorMessage == "" then "Unable to load your rides." else errorMessage)
    ensures !isError && isLoading ==> b == LoadingCard("Loading rides you joined...")
    ensures !isError && !isLoading ==>
      (b.RideCards? <==> exists v :: v in rides && HasParticipant(v, user.id))
    ensures !isError && !isLoading && !b.RideCards? ==> b == EmptyCard("You haven't joined any rides yet.")
    ensures b.RideCards? ==>
      && b.rides == JoinedRides(rides, Some(user))
      && forall v :: v in b.rides ==> v in rides && HasParticipant(v, user.id)
  {
    TabView(isError, isLoading, errorMessage, JoinedRides(rides, Some(user)),
            "Loading rides you joined...", "You haven't joined any rides yet.")
  }

  /** A ride the user joined through the ledger shows up on the joined tab once
      the rides are reloaded. */
  lemma JoinShowsOnJoinedTab(r: Ledger.Ride, caller: Ledger.Caller, now: Ledger.Timestamp,
                             before: seq<Ledger.RideView>, after: seq<Ledger.RideView>)
    requires Ledger.JoinRide(Some(r), caller, now).Success?
    ensures var v := Ledger.MapRide(Ledger.JoinRide(Some(r), caller, now).value);
      v in JoinedRides(before + [v] + after, Some(RideDetail.SessionUser(Ledger.IdString(caller.id), caller.name)))
  {
    var joined := Ledger.JoinRide(Some(r), caller, now).value;
    var v := Ledger.MapRide(joined);
    Ledger.JoinAppendsCaller(r, caller, now);
    var k := |joined.participants| - 1;
    assert v.participants[k] == Ledger.MapParticipant(joined.participants[k]);
    assert v in before + [v] + after;
  }
}

=== FILE: post_ride.dfy ===
/**
  The post-a-ride form of the web client: its fields (all strings, as the form
  holds them), the destination choice, the fare preview, and the submission
  sequence with its early returns.
*/
module PostRide {
  import opened Wrappers
  import opened Text
  import opened Toasts
  import Ledger
  import Fare
  import Accounts

  /** The destinations the form offers. */
  const DestinationChoices: seq<string> := ["Kozhikode Railway Station", "Calicut Airport", "Other"]

  /** The seat counts the form offers; each is sent as its decimal string. */
  const SeatChoices: seq<nat> := [1, 2, 3, 4]

  /** Every offered seat count reads back, through `Number`, as itself and lies in
      the range the ride schema accepts. */
  lemma SeatChoicesReadBack()
    ensures forall n :: n in SeatChoices ==> Number(ShowNat(n)) == Some(n) && 1 <= n <= 4
  {
    forall n | n in SeatChoices
      ensures Number(ShowNat(n)) == Some(n)
    {
      NumberShowNat(n);
    }
  }

  /** The body the form sends; `None` in a number field is NaN. */
  datatype ClientPayload = ClientPayload(
    from: string, to: string, date: string, time: string,
    seats: Option<nat>, totalFare: Option<nat>, note: Option<string>)

  /** What the server reads from that body after its own `Number(...)`: JSON turns
      NaN into `null`, which reads as 0, and drops an undefined note. */
  function ToServer(p: ClientPayload): Ledger.RawPayload {
    Ledger.RawPayload(
      Some(p.from), Some(p.to), Some(p.date), Some(p.time),
      Some(if p.seats.Some? then p.seats.value else 0),
      Some(if p.totalFare.Some? then p.totalFare.value else 0),
      if p.note.Some? then Ledger.NoteText(p.note.value) else Ledger.NoNote)
  }

  /** `Math.ceil(Number(totalFare) / (Number(seats) + 1))` and `Number(seats) + 1`;
      `None` stands for the NaN shown when a field does not read as a number. */
  datatype Preview = Preview(farePerPerson: Option<int>, people: Option<nat>)

  /** The fare preview, shown only while both fields are non-empty: the head count
      is the seats read as a number plus the host, and the share is the smallest
      amount that, paid by each of them, covers the total; a field that does not
      read as a number shows NaN in what depends on it. */
  function FarePreview(seats: string, totalFare: string): (r: Option<Preview>)
    ensures r.Some? <==> seats != "" && totalFare != ""
    ensures r.Some? ==> (r.value.people.Some? <==> Number(seats).Some?)
    ensures r.Some? && Number(seats).Some? ==> r.value.people == Some(Number(seats).value + 1)
    ensures r.Some? ==> (r.value.farePerPerson.Some? <==> Number(seats).Some? && Number(totalFare).Some?)
    ensures r.Some? && r.value.farePerPerson.Some? ==>
      var f, n, t := r.value.farePerPerson.value, Number(seats).value + 1, Number(totalFare).value;
      f * n >= t && (f - 1) * n < t
  {
    if seats == "" || totalFare == "" then None
    else
      var s, t := Number(seats), Number(totalFare);
      Some(Preview(
        if s.Some? && t.Some? then Some(Fare.FarePerPerson(t.value, s.value)) else None,
        if s.Some? then Some(Fare.HeadCount(s.value)) else None))
  }

  /** For the form's own values the preview is the fare split of the ride the
      server will store: the rounded-up share among the seats plus the host. */
  lemma PreviewIsFareSplit(seats: nat, totalFare: nat)
    ensures var p := FarePreview(ShowNat(seats), ShowNat(totalFare));
      && p.Some?
      && p.value.people == Some(seats + 1)
      && p.value.farePerPerson == Some(Fare.FarePerPerson(totalFare, seats))
  {
    NumberShowNat(seats);
    NumberShowNat(totalFare);
  }

  datatype FormField = ToField | DateField | TimeField | SeatsField | TotalFareField | NoteField

  /** A create request as sent, with the value `isSubmitting` had while it ran. */
  datatype CreateRequest = CreateRequest(payload: ClientPayload, token: string, submittingWhileSent: bool)

  class PostRideForm {
    var from: string
    var to: string
    var date: string
    var time: string
    var seats: string
    var totalFare: string
    var note: string
    var destinationChoice: string
    var isSubmitting: bool
    var sent: seq<CreateRequest>
    var toasts: seq<Toast>
    var navigations: seq<string>

    constructor ()
      ensures from == "NIT Calicut" && to == "" && date == "" && time == ""
      ensures seats == "2" && totalFare == "600" && note == "" && destinationChoice == ""
      ensures !isSubmitting && sent == [] && toasts == [] && navigations == []
    {
      from, to, date, time := "NIT Calicut", "", "", "";
      seats, totalFare, note := "2", "600", "";
      destinationChoice := "";
      isSubmitting := false;
      sent, toasts, navigations := [], [], [];
    }

    /** The payload built from the current fields: numbers through `Number`, and an
        empty note sent as undefined. */
    function Payload(): (p: ClientPayload)
      reads this
      ensures p.seats == Number(seats) && p.totalFare == Number(totalFare)
      ensures p.note.None? <==> note == ""
      ensures p.from == from && p.to == to && p.date == date && p.time == time
    {
      ClientPayload(from, to, date, time, Number(seats), Number(totalFare),
                    if note == "" then None else Some(note))
    }

    /** The destination select: "Other" clears `to` for a typed destination, any
        other choice becomes `to`. Nothing else changes. */
    method ChooseDestination(value: string)
      modifies this
      ensures destinationChoice == value
      ensures to == if value == "Other" then "" else value
      ensures from == old(from) && date == old(date) && time == old(time)
      ensures seats == old(seats) && totalFare == old(totalFare) && note == old(note)
      ensures isSubmitting == old(isSubmitting) && sent == old(sent)
      ensures toasts == old(toasts) && navigations == old(navigations)
    {
      destinationChoice := value;
      to := if value == "Other" then "" else value;
    }

    /** One of the field setters: replaces that field and no other. */
    method SetField(field: FormField, value: string)
      modifies this
      ensures to == (if field == ToField then value else old(to))
      ensures date == (if field == DateField then value else old(date))
      ensures time == (if field == TimeField then value else old(time))
      ensures seats == (if field == SeatsField then value else old(seats))
      ensures totalFare == (if field == TotalFareField then value else old(totalFare))
      ensures note == (if field == NoteField then value else old(note))
      ensures from == old(from) && destinationChoice == old(destinationChoice)
      ensures isSubmitting == old(isSubmitting) && sent == old(sent)
      ensures toasts == old(toasts) && navigations == old(navigations)
    {
      match field
      case ToField => to := value;
      case DateField => date := value;
      case TimeField => time := value;
      case SeatsField => seats := value;
      case TotalFareField => totalFare := value;
      case NoteField => note := value;
    }

    /** `handleSubmit`; `reply` is how the awaited create request settled. Missing
        destination, date or time: an error and nothing else. Then, with no token:
        an error and a redirect to `/auth`. Otherwise exactly one request is sent
        with `isSubmitting` set; success reports and moves to `/rides`, failure
        reports the message, and `isSubmitting` is cleared either way. */
    method HandleSubmit(token: Option<string>, reply: Outcome)
      modifies this
      ensures from == old(from) && to == old(to) && date == old(date) && time == old(time)
      ensures seats == old(seats) && totalFare == old(totalFare) && note == old(note)
      ensures destinationChoice == old(destinationChoice)
      ensures old(to) == "" || old(date) == "" || old(time) == "" ==>
        && sent == old(sent) && navigations == old(navigations) && isSubmitting == old(isSubmitting)
        && toasts == old(toasts) + [ErrorToast("Please fill in all required fields")]
      ensures old(to) != "" && old(date) != "" && old(time) != "" && Accounts.Falsy(token) ==>
        && sent == old(sent) && isSubmitting == old(isSubmitting)
        && navigations == old(navigations) + ["/auth"]
        && toasts == old(toasts) + [ErrorToast("Please sign in to post a ride.")]
      ensures old(to) != "" && old(date) != "" && old(time) != "" && !Accounts.Falsy(token) ==>
        && sent == old(sent) + [CreateRequest(old(Payload()), token.value, true)]
        && !isSubmitting
        && navigations == old(navigations) + (if reply.Pass? then ["/rides"] else [])
        && toasts == old(toasts) + [if reply.Pass? then SuccessToast("Ride posted successfully!") else ErrorToast(reply.message)]
    {
      if to == "" || date == "" || time == "" {
        toasts := toasts + [ErrorToast("Please fill in all required fields")];
        return;
      }
      if Accounts.Falsy(token) {
        toasts := toasts + [ErrorToast("Please sign in to post a ride.")];
        navigations := navigations + ["/auth"];
        return;
      }
      isSubmitting := true;
      sent := sent + [CreateRequest(Payload(), token.value, isSubmitting)];
      if reply.Pass? {
        toasts := toasts + [SuccessToast("Ride posted successfully!")];
        navigations := navigations + ["/rides"];
      } else {
        toasts := toasts + [ErrorToast(reply.message)];
      }
      isSubmitting := false;
    }
  }

  /** What the server makes of a submission that passed the form's own checks,
      with a seat count from the select: it is accepted exactly when the
      destination has at least two characters and the fare reads as at least 100.
      The form checks neither, so a one-character destination or a low fare
      reaches the server and is refused there. Because the form does insist on a
      date and a time, an accepted submission also passes the database schema. */
  lemma SubmissionAcceptedIff(from: string, to: string, date: string, time: string,
                              seats: nat, totalFare: string, note: string, host: Ledger.Caller)
    requires |from| >= 2 && to != "" && date != "" && time != ""
    requires seats in SeatChoices
    ensures var p := ClientPayload(from, to, date, time, Number(ShowNat(seats)), Number(totalFare),
                                   if note == "" then None else Some(note));
      Ledger.PayloadAcceptable(ToServer(p)) <==>
        |to| >= 2 && Number(totalFare).Some? && Number(totalFare).value >= 100
    ensures var p := ClientPayload(from, to, date, time, Number(ShowNat(seats)), Number(totalFare),
                                   if note == "" then None else Some(note));
      Ledger.PayloadAcceptable(ToServer(p)) && host.name != "" ==>
        Ledger.Storable(host, Ledger.ValidatePayload(ToServer(p)).value)
  {
    SeatChoicesReadBack();
  }
}

=== FILE: ride_detail.dfy ===
/**
  The ride detail dialog of the web client: the fare split it shows, the seats
  left, whether the viewer hosts the ride, and the join button with its handler.
*/
module RideDetail {
  import opened Wrappers
  import opened Toasts
  import opened Ledger
  import Fare
  import Accounts

  /** The signed-in user as the client holds it: the id string the server sent. */
  datatype SessionUser = SessionUser(id: string, name: string)

  /** `Math.max(seats - participants.length, 0)`. */
  function SeatsRemaining(v: RideView): (n: nat)
    ensures n == 0 <==> |v.participants| >= v.seats
    ensures |v.participants| <= v.seats ==> n + |v.participants| == v.seats
  {
    if v.seats - |v.participants| > 0 then v.seats - |v.participants| else 0
  }

  predicate IsRideFull(v: RideView) {
    SeatsRemaining(v) == 0
  }

  /** `user?.id === ride.hostId`: false when nobody is signed in. */
  predicate IsHost(user: Option<SessionUser>, v: RideView) {
    user.Some? && user.value.id == v.hostId
  }

  /** Whether a click on the join button sends a join request: a token is held,
      the ride is not full, and the viewer is not its host. */
  predicate SendsJoin(token: Option<string>, user: Option<SessionUser>, v: RideView) {
    !Accounts.Falsy(token) && !IsRideFull(v) && !IsHost(user, v)
  }

  datatype ButtonState = ButtonState(disabled: bool, caption: string)

  /** The join button: disabled while joining, on a full ride, or for the host; its
      label offers "Join Ride" exactly when it is enabled and otherwise names the
      first of host, full and joining that holds. */
  function JoinButton(isJoining: bool, isFull: bool, isHost: bool): (b: ButtonState)
    ensures b.disabled <==> isJoining || isFull || isHost
    ensures b.caption == "Join Ride" <==> !b.disabled
    ensures isHost ==> b.caption == "You posted this ride"
    ensures !isHost && isFull ==> b.caption == "Ride is full"
    ensures !isHost && !isFull && isJoining ==> b.caption == "Joining..."
  {
    ButtonState(
      isJoining || isFull || isHost,
      if isHost then "You posted this ride"
      else if isFull then "Ride is full"
      else if isJoining then "Joining..."
      else "Join Ride")
  }

  /** On a ride the server sent, the client's gating agrees with the ledger: a
      viewer the client blocks (host, or ride full) is refused by the server, and a
      request the client sends is either admitted or refused as already joined. */
  lemma ClientGateAgreesWithLedger(r: Ride, caller: Caller, now: Timestamp)
    requires WellFormed(r)
    ensures var v := MapRide(r);
      var user := Some(SessionUser(IdString(caller.id), caller.name));
      && (IsHost(user, v) <==> caller.id == r.hostId)
      && (IsRideFull(v) <==> |r.participants| >= r.seats)
      && (IsHost(user, v) || IsRideFull(v) ==> JoinRide(Some(r), caller, now).Failure?)
      && (!IsHost(user, v) && !IsRideFull(v) ==>
            JoinRide(Some(r), caller, now).Success? || JoinRide(Some(r), caller, now) == Failure(AlreadyJoined))
  {
    IdStringInjective(caller.id, r.hostId);
  }

  /** A join request as sent, with the value `isJoining` had while it ran. */
  datatype JoinRequest = JoinRequest(rideId: string, token: string, joiningWhileSent: bool)

  /** The dialog's state for one ride and viewer. */
  class RideDetailModal {
    const ride: RideView
    const user: Option<SessionUser>
    var isJoining: bool
    var sent: seq<JoinRequest>
    var toasts: seq<Toast>
    var closed: bool

    constructor (ride: RideView, user: Option<SessionUser>)
      ensures this.ride == ride && this.user == user
      ensures !isJoining && sent == [] && toasts == [] && !closed
    {
      this.ride := ride;
      this.user := user;
      isJoining := false;
      sent := [];
      toasts := [];
      closed := false;
    }

    /** `handleJoinRide`; `reply` is how the awaited join request settled. With no
        token it only asks the viewer to sign in; on a full ride or for the host it
        does nothing; otherwise it sends exactly one request with `isJoining` set,
        reports the result, closes on success, and clears `isJoining` either way. */
    method HandleJoinRide(token: Option<string>, reply: Outcome)
      modifies this
      ensures sent == old(sent) + (if SendsJoin(token, user, ride) then [JoinRequest(ride.id, token.value, true)] else [])
      ensures isJoining == (if SendsJoin(token, user, ride) then false else old(isJoining))
      ensures closed == (old(closed) || (SendsJoin(token, user, ride) && reply.Pass?))
      ensures toasts == old(toasts) +
        (if Accounts.Falsy(token) then [ErrorToast("Please sign in to join rides.")]
         else if !SendsJoin(token, user, ride) then []
         else if reply.Pass? then [SuccessToast("Join request sent!")]
         else [ErrorToast(reply.message)])
    {
      if Accounts.Falsy(token) {
        toasts := toasts + [ErrorToast("Please sign in to join rides.")];
        return;
      }
      if IsRideFull(ride) || IsHost(user, ride) {
        return;
      }
      isJoining := true;
      sent := sent + [JoinRequest(ride.id, token.value, isJoining)];
      if reply.Pass? {
        toasts := toasts + [SuccessToast("Join request sent!")];
        closed := true;
      } else {
        toasts := toasts + [ErrorToast(reply.message)];
      }
      isJoining := false;
    }
  }

  /** The fare breakdown the dialog shows for a ride the server sent: each of the
      `seats + 1` people pays the rounded-up share, which is positive and below the
      total, and the saving is the rest of the total. */
  lemma DialogFareBreakdown(v: RideView)
    requires ViewWellFormed(v)
    ensures var f := Fare.FarePerPerson(v.totalFare, v.seats);
      && 0 < f < v.totalFare
      && f * (v.seats + 1) >= v.totalFare && (f - 1) * (v.seats + 1) < v.totalFare
      && Fare.Savings(v.totalFare, v.seats) == v.totalFare - f
      && 0 < Fare.Savings(v.totalFare, v.seats)
  {
    Fare.SplitOfValidRide(v.totalFare, v.seats);
  }
}

=== FILE: rides_page.dfy ===
/**
  The ride browser of the web client: the hour-to-time-slot classifier, the
  three ride filters, the destination list built from the loaded rides, the
  reset of a destination filter that no longer names a listed destination, and
  the caption above the results.
*/
module RideBrowser {
  import opened Wrappers
  import opened Text
  import opened Seqs
  import Ledger

  /** The four time slots a departure time falls into. */
  datatype Slot = Morning | Afternoon | Evening | Night {
    /** The value the time-slot select uses for this slot. */
    function Name(): (n: string)
      ensures n != "all"
    {
      match this
      case Morning => "morning"
      case Afternoon => "afternoon"
      case Evening => "evening"
      case Night => "night"
    }
  }

  lemma SlotNamesDistinct(a: Slot, b: Slot)
    ensures a.Name() == b.Name() <==> a == b
  {
  }

  /** The if-chain on the hour; `None` is the NaN a non-numeric hour reads as,
      and every comparison with it is false. */
  function SlotOfHour(hours: Option<nat>): (s: Slot)
    ensures s == Morning <==> hours.Some? && 6 <= hours.value < 12
    ensures s == Afternoon <==> hours.Some? && 12 <= hours.value < 17
    ensures s == Evening <==> hours.Some? && 17 <= hours.value < 22
    ensures s == Night <==> hours.None? || hours.value < 6 || hours.value >= 22
  {
    if hours.Some? && 6 <= hours.value < 12 then Morning
    else if hours.Some? && 12 <= hours.value < 17 then Afternoon
    else if hours.Some? && 17 <= hours.value < 22 then Evening
    else Night
  }

  /** `getTimeSlot`: the number before the first colon, classified. */
  function GetTimeSlot(time: string): string {
    SlotOfHour(Number(Before(time, ':'))).Name()
  }

  /** A departure time written `HH:MM` (or `H:MM`) with a numeric hour is
      classified by that hour. */
  lemma TimeSlotOfClockTime(hh: string, mm: string)
    requires AllDigits(hh)
    ensures GetTimeSlot(hh + ":" + mm) == SlotOfHour(Some(DigitsValue(hh))).Name()
  {
    BeforeOfJoin(hh, ':', mm);
  }

  /** Every departure time gets exactly one of the four slot names. */
  lemma TimeSlotIsOneOfFour(time: string)
    ensures GetTimeSlot(time) in ["morning", "afternoon", "evening", "night"]
    ensures GetTimeSlot(time) != "all"
  {
  }

  /** A time without a numeric hour (here: a non-digit before the colon) is
      night. */
  lemma NonNumericHourIsNight(time: string)
    requires !AllDigits(Before(time, ':'))
    ensures GetTimeSlot(time) == "night"
  {
  }

  /** The filter panel's state. */
  datatype Filters = Filters(to: string, date: string, timeSlot: string)

  const DefaultFilters: Filters := Filters("all", "", "all")

  /** The three checks of the filter callback, on the fields they read. */
  predicate Accepts(f: Filters, to: string, date: string, time: string) {
    && (f.to == "all" || to == f.to)
    && (f.date == "" || date == f.date)
    && (f.timeSlot == "all" || GetTimeSlot(time) == f.timeSlot)
  }

  predicate AcceptsRide(f: Filters, v: Ledger.RideView) {
    Accepts(f, v.to, v.date, v.time)
  }

  /** `filteredRides`: the loaded rides, in order, that all three filters accept. */
  function FilteredRides(rides: seq<Ledger.RideView>, f: Filters): (r: seq<Ledger.RideView>)
    ensures IsSubsequence(r, rides)
    ensures forall v :: v in r <==>
      && v in rides
      && (f.to == "all" || v.to == f.to)
      && (f.date == "" || v.date == f.date)
      && (f.timeSlot == "all" || GetTimeSlot(v.time) == f.timeSlot)
  {
    Filter(rides, v => AcceptsRide(f, v))
  }

  /** The default filters keep every ride, in its place. */
  lemma DefaultFiltersKeepAll(rides: seq<Ledger.RideView>)
    ensures FilteredRides(rides, DefaultFilters) == rides
  {
  }

  /** A time-slot filter naming no slot keeps nothing. */
  lemma UnknownSlotKeepsNothing(rides: seq<Ledger.RideView>, f: Filters)
    requires f.timeSlot !in ["all", "morning", "afternoon", "evening", "night"]
    ensures FilteredRides(rides, f) == []
  {
    if FilteredRides(rides, f) != [] {
      var v := FilteredRides(rides, f)[0];
      TimeSlotIsOneOfFour(v.time);
    }
  }

  function Tos(rides: seq<Ledger.RideView>): (r: seq<string>)
    ensures |r| == |rides| && forall i :: 0 <= i < |rides| ==> r[i] == rides[i].to
  {
    seq(|rides|, i requires 0 <= i < |rides| => rides[i].to)
  }

  /** `destinations`: "all" and then each ride's destination once, in order of
      first appearance. */
  function Destinations(rides: seq<Ledger.RideView>): (d: seq<string>)
    ensures |d| >= 1 && d[0] == "all"
    ensures forall x :: x in d[1..] <==> exists v :: v in rides && v.to == x
  {
    var d := ["all"] + Distinct(Tos(rides));
    assert d[1..] == Distinct(Tos(rides));
    forall x ensures x in d[1..] <==> exists v :: v in rides && v.to == x {
      if x in Tos(rides) {
        var i :| 0 <= i < |rides| && Tos(rides)[i] == x;
        assert rides[i] in rides;
      }
    }
    d
  }

  /** The destinations after "all" have no repeats and follow the order in which
      they first occur among the rides. */
  lemma DestinationsInFirstOccurrenceOrder(rides: seq<Ledger.RideView>)
    ensures var d := Destinations(rides)[1..];
      && (forall i, j :: 0 <= i < j < |d| ==> d[i] != d[j])
      && (forall i, j :: 0 <= i < j < |d| ==> IndexOf(Tos(rides), d[i]) < IndexOf(Tos(rides), d[j]))
  {
    var d := Destinations(rides)[1..];
    assert d == Distinct(Tos(rides));
    DistinctFirstOccurrenceOrder(Tos(rides));
    DistinctNoDuplicates(Tos(rides));
  }

  /** The destination reset effect, as a function from filters to filters: a
      destination filter that is not "all" and not listed becomes "all". */
  function ReconcileDestination(f: Filters, rides: seq<Ledger.RideView>): (r: Filters)
    ensures r.date == f.date && r.timeSlot == f.timeSlot
    ensures r.to in Destinations(rides)
    ensures f.to in Destinations(rides) ==> r == f
    ensures f.to !in Destinations(rides) ==> r.to == "all"
  {
    var dests := Destinations(rides);
    if f.to != "all" && f.to !in dests then f.(to := "all") else f
  }

  lemma ReconcileIdempotent(f: Filters, rides: seq<Ledger.RideView>)
    ensures ReconcileDestination(ReconcileDestination(f, rides), rides) == ReconcileDestination(f, rides)
  {
  }

  /** After the reset, a destination filter alone never hides every ride: when
      it names a destination, some loaded ride goes there and is shown. */
  lemma ReconciledDestinationShowsARide(f: Filters, rides: seq<Ledger.RideView>)
    requires rides != []
    ensures var r := ReconcileDestination(f, rides);
      FilteredRides(rides, r.(date := "", timeSlot := "all")) != []
  {
    var r := ReconcileDestination(f, rides);
    var g := r.(date := "", timeSlot := "all");
    if r.to == "all" {
      assert rides[0] in FilteredRides(rides, g);
    } else {
      var d := Destinations(rides);
      var k :| 0 <= k < |d| && d[k] == r.to;
      assert d[1..][k - 1] == r.to;
      var v :| v in rides && v.to == r.to;
      assert v in FilteredRides(rides, g);
    }
  }

  /** The caption above the results: loading, then the error message (or a
      fallback when it is empty), then the number of rides found. */
  function ResultsCaption(isLoading: bool, isError: bool, errorMessage: string, count: nat): (c: string)
    ensures isLoading ==> c == "Loading rides…"
    ensures !isLoading && isError ==> c == (if errorMessage == "" then "Unable to load rides." else errorMessage)
    ensures !isLoading && !isError ==>
      exists n :: c == n + " " + (if count == 1 then "ride" else "rides") + " found" && Number(n) == Some(count)
  {
    if isLoading then "Loading rides…"
    else if isError then (if errorMessage == "" then "Unable to load rides." else errorMessage)
    else
      NumberShowNat(count);
      ShowNat(count) + " " + (if count == 1 then "ride" else "rides") + " found"
  }
}

=== FILE: seqs.dfy ===
/**
  The array operations the pages use on lists of rides and drivers:
  `filter`, and the distinct values of a list in first-occurrence order
  (`Array.from(new Set(...))`).
*/
module Seqs {

  /** `a` is `b` with some elements left out and the rest kept in order. */
  predicate IsSubsequence<T(==)>(a: seq<T>, b: seq<T>)
    decreases |b|
  {
    a == [] ||
    (b != [] && ((a[0] == b[0] && IsSubsequence(a[1..], b[1..])) || IsSubsequence(a, b[1..])))
  }

  /** `s.filter(p)`: an order-preserving subsequence holding exactly the elements
      `p` accepts, each as often as it occurs in `s`. */
  function Filter<T(!new)>(s: seq<T>, p: T -> bool): (r: seq<T>)
    ensures |r| <= |s|
    ensures IsSubsequence(r, s)
    ensures forall x :: x in r <==> x in s && p(x)
    ensures forall x :: multiset(r)[x] == if p(x) then multiset(s)[x] else 0
    ensures (forall x :: x in s ==> p(x)) ==> r == s
  {
    if s == [] then []
    else
      assert s == [s[0]] + s[1..];
      if p(s[0]) then [s[0]] + Filter(s[1..], p)
      else Filter(s[1..], p)
  }

  /** Filtering a concatenation filters each part. */
  lemma {:induction false} FilterAppend<T(!new)>(a: seq<T>, b: seq<T>, p: T -> bool)
    ensures Filter(a + b, p) == Filter(a, p) + Filter(b, p)
  {
    if a == [] {
      assert a + b == b;
    } else {
      var ab := a + b;
      assert ab[0] == a[0] && ab[1..] == a[1..] + b;
      FilterAppend(a[1..], b, p);
    }
  }

  /** The positions of `s` that `p` accepts. */
  function Positions<T>(s: seq<T>, p: T -> bool): set<int> {
    set i | 0 <= i < |s| && p(s[i])
  }

  lemma PositionsSnoc<T>(s: seq<T>, x: T, p: T -> bool)
    ensures Positions(s + [x], p) == Positions(s, p) + (if p(x) then {|s|} else {})
    ensures |s| !in Positions(s, p)
  {
    var t := s + [x];
    assert forall i :: 0 <= i < |s| ==> t[i] == s[i];
    assert t[|s|] == x;
  }

  lemma FilterSingleton<T(!new)>(x: T, p: T -> bool)
    ensures Filter([x], p) == if p(x) then [x] else []
  {
    assert [x][1..] == [];
  }

  /** The length of `s.filter(p)` is the number of positions of `s` that `p` accepts. */
  lemma {:induction false} FilterLengthCountsPositions<T(!new)>(s: seq<T>, p: T -> bool)
    ensures |Filter(s, p)| == |Positions(s, p)|
    decreases |s|
  {
    if s == [] {
      assert Positions(s, p) == {};
    } else {
      var init, x := s[..|s| - 1], s[|s| - 1];
      assert s == init + [x];
      FilterAppend(init, [x], p);
      FilterSingleton(x, p);
      FilterLengthCountsPositions(init, p);
      PositionsSnoc(init, x, p);
    }
  }

  /** The index of the first occurrence of `x` in `s`. */
  function IndexOf<T(==)>(s: seq<T>, x: T): (i: nat)
    requires x in s
    ensures i < |s| && s[i] == x && x !in s[..i]
  {
    if s[0] == x then 0 else 1 + IndexOf(s[1..], x)
  }

  /** The distinct values of `s` in the order of their first occurrence. */
  function Distinct<T(==,!new)>(s: seq<T>): (r: seq<T>)
    ensures forall x :: x in r <==> x in s
  {
    if s == [] then []
    else
      var d := Distinct(s[..|s| - 1]);
      assert s == s[..|s| - 1] + [s[|s| - 1]];
      if s[|s| - 1] in d then d else d + [s[|s| - 1]]
  }

  lemma {:induction false} IndexOfExtend<T>(s: seq<T>, y: T, x: T)
    requires x in s
    ensures IndexOf(s + [y], x) == IndexOf(s, x)
  {
    if s[0] != x {
      assert (s + [y])[1..] == s[1..] + [y];
      IndexOfExtend(s[1..], y, x);
    }
  }

  lemma IndexOfLast<T>(s: seq<T>, y: T)
    requires y !in s
    ensures IndexOf(s + [y], y) == |s|
  {
    assert (s + [y])[..|s|] == s;
  }

  /** `Distinct(s)` lists the values of `s` in strictly increasing order of their
      first occurrence, so it holds no value twice. */
  lemma {:induction false} DistinctFirstOccurrenceOrder<T(!new)>(s: seq<T>)
    ensures forall i, j :: 0 <= i < j < |Distinct(s)| ==>
      IndexOf(s, Distinct(s)[i]) < IndexOf(s, Distinct(s)[j])
  {
    if s != [] {
      var init, y := s[..|s| - 1], s[|s| - 1];
      assert s == init + [y];
      var d := Distinct(init);
      DistinctFirstOccurrenceOrder(init);
      forall x | x in init
        ensures IndexOf(s, x) == IndexOf(init, x)
      {
        IndexOfExtend(init, y, x);
      }
      if y !in d {
        IndexOfLast(init, y);
        forall x | x in d
          ensures IndexOf(s, x) < IndexOf(s, y)
        {
          assert x in init;
        }
        forall i, j | 0 <= i < j < |d + [y]|
          ensures IndexOf(s, (d + [y])[i]) < IndexOf(s, (d + [y])[j])
        {
          assert (d + [y])[i] == d[i] && d[i] in d;
          if j < |d| {
            assert (d + [y])[j] == d[j] && d[j] in d;
          }
        }
      }
    }
  }

  /** A distinct list holds each value once. */
  lemma DistinctNoDuplicates<T(!new)>(s: seq<T>)
    ensures forall i, j :: 0 <= i < j < |Distinct(s)| ==> Distinct(s)[i] != Distinct(s)[j]
  {
    DistinctFirstOccurrenceOrder(s);
  }

  /** Keeping only the last element of both lists keeps a subsequence. */
  lemma {:induction false} SubsequenceSnoc<T>(a: seq<T>, b: seq<T>, x: T)
    requires IsSubsequence(a, b)
    ensures IsSubsequence(a + [x], b + [x])
    decreases |b|
  {
    if a == [] {
      SubsequenceOfSingleton(b, x);
      assert a + [x] == [x];
    } else {
      assert (a + [x])[0] == a[0] && (a + [x])[1..] == a[1..] + [x];
      assert (b + [x])[1..] == b[1..] + [x];
      if a[0] == b[0] && IsSubsequence(a[1..], b[1..]) {
        SubsequenceSnoc(a[1..], b[1..], x);
      } else {
        SubsequenceSnoc(a, b[1..], x);
      }
    }
  }

  lemma {:induction false} SubsequenceOfSingleton<T>(b: seq<T>, x: T)
    ensures IsSubsequence([x], b + [x])
    decreases |b|
  {
    if b != [] {
      assert (b + [x])[1..] == b[1..] + [x];
      SubsequenceOfSingleton(b[1..], x);
    } else {
      assert IsSubsequence([x][1..], [x][1..]);
    }
  }

  lemma {:induction false} SubsequenceDropLast<T>(a: seq<T>, b: seq<T>, x: T)
    requires IsSubsequence(a, b)
    ensures IsSubsequence(a, b + [x])
    decreases |b|
  {
    if a != [] && b != [] {
      assert (b + [x])[1..] == b[1..] + [x];
      if a[0] == b[0] && IsSubsequence(a[1..], b[1..]) {
        SubsequenceDropLast(a[1..], b[1..], x);
      } else {
        SubsequenceDropLast(a, b[1..], x);
      }
    }
  }

  /** The distinct values appear in `s` in the order they are listed. */
  lemma {:induction false} DistinctIsSubsequence<T(!new)>(s: seq<T>)
    ensures IsSubsequence(Distinct(s), s)
  {
    if s != [] {
      var init, y := s[..|s| - 1], s[|s| - 1];
      assert s == init + [y];
      DistinctIsSubsequence(init);
      if y in Distinct(init) {
        SubsequenceDropLast(Distinct(init), init, y);
      } else {
        SubsequenceSnoc(Distinct(init), init, y);
      }
    }
  }

  /** A filter keeps its whole input exactly when every element passes. */
  lemma {:induction false} FilterKeepsAllIffAll<T(!new)>(s: seq<T>, p: T -> bool)
    ensures |Filter(s, p)| == |s| <==> forall x :: x in s ==> p(x)
  {
    if s != [] {
      FilterKeepsAllIffAll(s[1..], p);
      assert forall x :: x in s <==> x == s[0] || x in s[1..];
    }
  }
}

=== FILE: text.dfy ===
/**
  String helpers the program takes from JavaScript: `toLowerCase`, `includes`,
  `Number(...)`, `split(...)` and the code-point (UTF-8 byte) ordering the store sorts by.
*/
module Text {
  import opened Wrappers

  // ---------------------------------------------------------------------------
  // Lower case (ASCII letters)

  function LowerChar(c: char): char {
    if 'A' <= c <= 'Z' then (c as int + 32) as char else c
  }

  /** `s.toLowerCase()` on the ASCII alphabet. */
  function Lower(s: string): (r: string)
    ensures |r| == |s|
    ensures forall i :: 0 <= i < |s| ==> r[i] == LowerChar(s[i])
  {
    seq(|s|, i requires 0 <= i < |s| => LowerChar(s[i]))
  }

  predicate IsLower(s: string) {
    Lower(s) == s
  }

  /** Lower-casing twice is lower-casing once, so a stored (lowered) e-mail is
      found again by lowering the key it is looked up with. */
  lemma LowerIdempotent(s: string)
    ensures IsLower(Lower(s))
  {
    var l := Lower(s);
    assert forall i :: 0 <= i < |l| ==> LowerChar(l[i]) == l[i];
  }

  // ---------------------------------------------------------------------------
  // Substring search: `hay.includes(needle)`

  /** The specification: `needle` occurs at some position of `hay`. */
  ghost predicate OccursIn(needle: string, hay: string) {
    exists i :: OccursAt(needle, hay, i)
  }

  ghost predicate OccursAt(needle: string, hay: string, i: int) {
    0 <= i <= |hay| - |needle| && hay[i..i + |needle|] == needle
  }

  /** `hay.includes(needle)`, searched position by position. */
  function Includes(hay: string, needle: string): bool
    decreases |hay|
  {
    needle <= hay || (hay != [] && Includes(hay[1..], needle))
  }

  lemma {:induction false} IncludesIsOccurrence(hay: string, needle: string)
    ensures Includes(hay, needle) <==> OccursIn(needle, hay)
    decreases |hay|
  {
    if needle <= hay {
      assert OccursAt(needle, hay, 0);
    } else if hay == [] {
      assert forall i :: !OccursAt(needle, hay, i);
    } else {
      IncludesIsOccurrence(hay[1..], needle);
      if OccursIn(needle, hay[1..]) {
        var i :| OccursAt(needle, hay[1..], i);
        assert hay[1..][i..i + |needle|] == hay[i + 1..i + 1 + |needle|];
        assert OccursAt(needle, hay, i + 1);
      }
      if OccursIn(needle, hay) {
        var i :| OccursAt(needle, hay, i);
        if i != 0 {
          assert hay[1..][i - 1..i - 1 + |needle|] == hay[i..i + |needle|];
          assert OccursAt(needle, hay[1..], i - 1);
        }
      }
    }
  }

  // ---------------------------------------------------------------------------
  // Decimal numbers: `Number(s)` and `n.toString()`

  predicate IsDigit(c: char) {
    '0' <= c <= '9'
  }

  predicate AllDigits(s: string) {
    forall i :: 0 <= i < |s| ==> IsDigit(s[i])
  }

  /** The value of a string of decimal digits, most significant first. */
  function DigitsValue(s: string): (n: nat)
    requires AllDigits(s)
  {
    if s == [] then 0
    else DigitsValue(s[..|s| - 1]) * 10 + (s[|s| - 1] as int - '0' as int)
  }

  /** `Number(s)`: the empty string is 0, a string of decimal digits is its value,
      and every other string is NaN (`None`). */
  function Number(s: string): (r: Option<nat>)
    ensures r.None? <==> !AllDigits(s)
  {
    if AllDigits(s) then Some(DigitsValue(s)) else None
  }

  function DigitChar(d: nat): (c: char)
    requires d < 10
    ensures IsDigit(c) && c as int - '0' as int == d
  {
    ('0' as int + d) as char
  }

  /** `n.toString()` for a natural number. */
  function ShowNat(n: nat): (s: string)
    ensures s != [] && AllDigits(s)
  {
    if n < 10 then [DigitChar(n)] else ShowNat(n / 10) + [DigitChar(n % 10)]
  }

  /** Reading back a printed number gives the number. */
  lemma {:induction false} NumberShowNat(n: nat)
    ensures Number(ShowNat(n)) == Some(n)
  {
    var s := ShowNat(n);
    if n < 10 {
      assert s[..|s| - 1] == [];
      assert DigitsValue(s) == DigitsValue([]) * 10 + (s[0] as int - '0' as int);
    } else {
      NumberShowNat(n / 10);
      assert s[..|s| - 1] == ShowNat(n / 10);
    }
  }

  /** Printing is injective: distinct numbers never print alike. */
  lemma ShowNatInjective(m: nat, n: nat)
    requires ShowNat(m) == ShowNat(n)
    ensures m == n
  {
    NumberShowNat(m);
    NumberShowNat(n);
  }

  // ---------------------------------------------------------------------------
  // Pieces of `split`

  /** The first piece of `s.split(c)`: everything before the first `c`. */
  function Before(s: string, c: char): (r: string)
    ensures r <= s && c !in r
    ensures |r| < |s| ==> s[|r|] == c
  {
    if s == [] || s[0] == c then [] else [s[0]] + Before(s[1..], c)
  }

  /** Everything after the first `c`. */
  function After(s: string, c: char): (r: string)
    requires c in s
    ensures |r| < |s| && s[|s| - |r|..] == r && s[|s| - |r| - 1] == c
    ensures c !in s[..|s| - |r| - 1]
  {
    if s[0] == c then s[1..] else After(s[1..], c)
  }

  /** `s.split(c)[1]`: the second piece, `None` when `c` does not occur. */
  function SecondPiece(s: string, c: char): (r: Option<string>)
    ensures r.Some? ==> c !in r.value
  {
    if c in s then Some(Before(After(s, c), c)) else None
  }

  lemma {:induction false} BeforeOfJoin(p: string, c: char, t: string)
    requires c !in p
    ensures Before(p + [c] + t, c) == p
    ensures After(p + [c] + t, c) == t
  {
    if p != [] {
      assert (p + [c] + t)[1..] == p[1..] + [c] + t;
      BeforeOfJoin(p[1..], c, t);
    }
  }

  /** A number written out and followed by a separator reads back from the
      text before that separator. */
  lemma NumberBeforeSeparator(n: nat, c: char, rest: string)
    requires !IsDigit(c)
    ensures Number(Before(ShowNat(n) + [c] + rest, c)) == Some(n)
  {
    var digits := ShowNat(n);
    assert c !in digits by {
      forall i | 0 <= i < |digits| ensures digits[i] != c {
        assert IsDigit(digits[i]);
      }
    }
    BeforeOfJoin(digits, c, rest);
    NumberShowNat(n);
  }

  /** The second piece of `p + " " + t` is `t` when neither part holds a space. */
  lemma SecondPieceOfJoin(p: string, c: char, t: string)
    requires c !in p && c !in t
    ensures SecondPiece(p + [c] + t, c) == Some(t)
  {
    BeforeOfJoin(p, c, t);
    BeforeOfJoin(t, c, []);
    assert t + [c] + [] == t + [c];
    assert Before(t, c) == t by {
      BeforeNoSep(t, c);
    }
  }

  lemma {:induction false} BeforeNoSep(s: string, c: char)
    requires c !in s
    ensures Before(s, c) == s
  {
    if s != [] {
      BeforeNoSep(s[1..], c);
    }
  }

  // ---------------------------------------------------------------------------
  // Lexicographic order of strings (the store's ascending string sort)

  predicate LexLess(a: string, b: string) {
    if a == [] then b != []
    else b != [] && (a[0] < b[0] || (a[0] == b[0] && LexLess(a[1..], b[1..])))
  }

  lemma {:induction false} LexLessIrreflexive(a: string)
    ensures !LexLess(a, a)
  {
    if a != [] {
      LexLessIrreflexive(a[1..]);
    }
  }

  lemma {:induction false} LexLessTransitive(a: string, b: string, c: string)
    requires LexLess(a, b) && LexLess(b, c)
    ensures LexLess(a, c)
  {
    if a != [] && a[0] == b[0] && b[0] == c[0] {
      LexLessTransitive(a[1..], b[1..], c[1..]);
    }
  }

  lemma {:induction false} LexLessTotal(a: string, b: string)
    ensures a == b || LexLess(a, b) || LexLess(b, a)
  {
    if a != [] && b != [] && a[0] == b[0] {
      LexLessTotal(a[1..], b[1..]);
      if a[1..] == b[1..] {
        assert a == [a[0]] + a[1..] && b == [b[0]] + b[1..];
      }
    }
  }
}

=== FILE: toasts.dfy ===
/** The notifications the web client shows after an action. */
module Toasts {
  datatype Toast = ErrorToast(message: string) | SuccessToast(message: string)
}

=== FILE: wrappers.dfy ===
/** Option and Result values for the error paths of the ride-sharing model. */
module Wrappers {

  datatype Option<+T> = None | Some(value: T)

  /** The outcome of an operation that either produces a value or fails with a
      distinct error (an HTTP status and message in the original program). */
  datatype Result<+R, +E> = Success(value: R) | Failure(error: E)

  /** The outcome of an awaited request as the client sees it: it resolved, or it
      threw with a message. */
  datatype Outcome = Pass | Fail(message: string)
}
